=== FILE: README.md ===
# A verified model of the library's hash table, xorshift generators, statistics and vectors

This project models the core of a small C++ utility library in Dafny:

- `Lib::CHash<T>`, a fixed-capacity hash table keyed by C strings. Each
  bucket holds a linked chain, and the bucket is chosen by a mid-square
  hash of the key's character codes. `Lib::CBucket<T>` is the key/data
  holder that owns a copy of its key (module `CBucket`).
- The xorshift128 random number generators: `Lib::CXorShift`,
  `lib::xorshift` and the C struct `XorShift`. Their step and their
  seeding differ only in the shift triple and the seeding constants, so
  one module (`XorShift`) takes those two as parameters. The C struct
  offers only seeding and the plain draw. The range, bound and bit draws
  and the self test belong to the two C++ classes, and the letter draw to
  `lib::xorshift` alone.
- The descriptive-statistics class. It appears three times, as
  `lib::statistic`, `Lib::CStatistic` and `lib::math::statistic`, with the
  same implementation, so one module (`Statistic`) models all three.
- `lib::math::vector<N, Elm>`, a small fixed-dimension vector over
  `std::vector` (module `Vector`).

Shared `Option` and `Result` types live in `Wrappers`. Methods and
functions that would throw return `Err`. Two small facts about
rearranged sequences, used by both the hash's code sum and the
statistics' total, live in `Seqs`. Unsigned binary arithmetic used by both
the hash's mask and the generator's words lives in `Binary`: powers of two,
unique quotients and remainders, the bits of a number least significant
first, and C's `&` and `^` on non-negative integers.

Modelling choices:

- Fixed-width unsigned arithmetic is written out as reduction modulo
  2^32 or 2^64. A xorshift word is kept as an integer below 2^32. The step
  computes its shifts and xors on the word's 32 bits, least significant
  first. The same operators are also given in C's unsigned arithmetic
  (`XorShift.ShlU32`, `XorShift.ShrU32`, `XorShift.XorU32`), and lemmas
  show that the two views agree.
- The element type of the statistics and vector templates is `int`.
  Sums, means, medians and variances, which the library computes in
  `double`, are exact reals here.
- The hash's mask is `0xFFFFFFFF << 16`, which is evaluated in 32-bit
  unsigned arithmetic and so is `0xFFFF0000`. The hash is therefore bits
  16..31 of the square, a value below 2^16. C's `&` on the non-negative
  masked operands is modelled bit by bit (`Binary.BitAnd`).

## Model

| member | source | states |
|---|---|---|
| CBucket.New | CBucket.hpp:78-81 | A new bucket has an empty key and the default data it was given |
| CBucket.Set | CBucket.hpp:101-112 | The bucket owns a copy of the key's text plus its terminator, holds the new data, and reports 1 |
| CBucket.GetKey | CBucket.hpp:120-123 | The key accessor returns the buffer the bucket owns. It carries no contract of its own; the contracts of `New` and `Set` state its value through it: empty after construction, and after `Set` the key's text with one terminator |
| CBucket.GetData | CBucket.hpp:131-134 | The data accessor returns the stored data. It carries no contract of its own; `New` states it is the default it was given, and `Set` that it is the data last set |
| CBucket.SetReplacesEverything | CBucket.hpp:101-112 | A second `Set` leaves no trace of the first key or data: the result is as if the bucket were fresh |
| CBucket.OnlyTextIsCopied | CBucket.hpp:103-107 | Only the characters up to the terminator are copied, so two buffers with the same C string give the same bucket |
| CBucket.Strlen | CBucket.hpp:103 | The length is the position of the first NUL, and no earlier character is NUL |
| CHash.CalculateHash | CHash.hpp:296-313 | The hash is the 16 bits of the 64-bit square of the code sum that lie above its low 16 bits. It is never negative and is below 2^16 |
| CHash.MaskIsLowMiddle | CHash.hpp:300 | `0xFFFFFFFF << 16` in 32-bit unsigned arithmetic is `0xFFFF0000`, the mask of bits 16..31 |
| CHash.MiddleBits | CHash.hpp:308 | `&`-ing the square wrapped to 64 bits with the mask and shifting right by 16 gives bits 16..31 of the unwrapped square |
| CHash.MaskBits | CHash.hpp:308 | `x & m`, for the mask `m` of bits `lo .. hi - 1`, is `x mod 2^hi` less `x mod 2^lo`, with `&` defined bit by bit |
| CHash.MaskValue | CHash.hpp:300 | The mask of bits `lo .. hi - 1` is `2^hi - 2^lo` |
| CHash.EmptyKeyHashesToZero | CHash.hpp:303-308 | The empty key hashes to 0 |
| CHash.SumPermutation | CHash.hpp:303-306 | The code sum depends only on the multiset of characters in the key |
| CHash.PermutedKeysCollide | CHash.hpp:296-313 | Keys that are rearrangements of each other always hash to the same value |
| CHash.BucketIndex | CHash.hpp:231 | The bucket index `hash % size` is a valid bucket of the table |
| CHash.Create | CHash.hpp:95-124 | A table of `size` buckets is well formed, holds no cell and represents the empty map |
| CHash.CreateDefault | CHash.hpp:43 | The default constructor makes a well-formed empty table of 64 buckets |
| CHash.EmptyCount | CHash.hpp:113-114 | A table whose buckets are all NULL holds no cell |
| CHash.Find | CHash.hpp:275-280 | The chain search stops at the first cell whose key equals the given one, or reports that no cell has that key |
| CHash.FindCell | CHash.hpp:268-283 | The cell is found exactly when the key is in the table's map, and it is the key's own cell in the key's bucket |
| CHash.AbsentWhenNotInChain | CHash.hpp:268-283 | Searching the key's own bucket is enough: a key missing from that chain is nowhere in the table |
| CHash.KeysUniqueAcrossTable | CHash.hpp:227-257 | In a well-formed table two cells with the same key are the same cell |
| CHash.ContentsAtCell | CHash.hpp:268-283 | Each cell's key maps to that cell's value in the table's map |
| CHash.Get | CHash.hpp:174-191 | A NULL key throws. A key that was never set throws an error naming the key. Otherwise the result is the value the map holds for the key |
| CHash.Lookup | CHash.hpp:205-213 | `operator[]` succeeds exactly when `Get` does, with the same value and the same errors |
| CHash.Set | CHash.hpp:227-257 | Set keeps the table well formed and the number of buckets fixed, and the represented map becomes the old map updated at the key |
| CHash.SetChain | CHash.hpp:231-252 | Only the key's chain changes. A present key's cell is overwritten in place, keeping the chain's keys. A new key's cell is appended at the tail of its chain |
| CHash.OverwriteContents | CHash.hpp:234-236 | Overwriting a cell's value keeps the table well formed and updates the map at the key |
| CHash.AppendContents | CHash.hpp:238-251 | Appending a cell for an absent key keeps the table well formed and adds the key to the map |
| CHash.SetCount | CHash.hpp:227-257 | Set adds one cell for a new key and none for a present key |
| CHash.SetThenGet | CHash.hpp:174-257 | After setting a key, `Get` of that key returns the value just set |
| CHash.SetIndependent | CHash.hpp:174-257 | Setting one key leaves `Get` of every other key unchanged |
| CHash.OverwriteKeepsCount | CHash.hpp:234-236 | Setting a key twice keeps the last value and does not add a cell |
| CHash.GetMissing | CHash.hpp:181-184 | `Get` of a key absent from the map throws the not-found error for that key |
| CHash.OneBucketCollisions | CHash.hpp:227-283 | In a one-bucket table every key collides. After three sets, each key still reads back its own value, and the one chain holds three cells |
| CHash.FourBucketScenario | CHash.hpp:174-257 | In an empty four-bucket table, "x" and "y" read back the values set for them and "z" is reported missing |
| XorShift.Seed | CXorShift.hpp:38-43 | A seeded state's first word is the seed |
| XorShift.SeededStateNeverZero | XorShift.h:39-46 | No seed, under either seeding rule, yields the all-zero state |
| XorShift.ToU32 | CXorShift.hpp:52-62 | Every 32-bit pattern is the bit pattern of exactly one 32-bit value |
| XorShift.WordRoundTrip | CXorShift.hpp:52-62 | Converting a value to its bits and back gives the value |
| XorShift.UnstepOfStep | CXorShift.hpp:52-62 | The step of every variant can be undone: the inverse step recovers the state before it |
| XorShift.StepOfUnstep | xorshift.hpp:57-67 | Every state is the step of some state, namely its inverse step |
| XorShift.StepInjective | XorShift.h:64-75 | Two distinct states never step to the same state |
| XorShift.UnscrambleScramble | CXorShift.hpp:55-59 | The oldest word's contribution `t ^ (t >> b)` with `t = x ^ (x << a)` determines `x` |
| XorShift.ScrambleUnscramble | xorshift.hpp:60-64 | The oldest word's contribution covers every 32-bit pattern |
| XorShift.StepZero | CXorShift.hpp:52-62 | A step yields the all-zero state exactly when it starts from it |
| XorShift.NeverZero | CXorShift.hpp:52-62 | A generator that does not start at zero never reaches the zero state, however many draws it makes |
| XorShift.DrawsAreLastWords | CXorShift.hpp:52-62 | The i-th draw is the last word of the state after i+1 steps |
| XorShift.FourDrawsAreTheState | CXorShift.hpp:52-62 | Four consecutive draws are the whole state after them |
| XorShift.StepNInjective | CXorShift.hpp:52-62 | Distinct states stay distinct after any number of steps |
| XorShift.DistinctSeedsDistinctDraws | CXorShift.hpp:38-62 | Two different seeds give different first four draws |
| XorShift.Generate | CXorShift.hpp:52-62 | A draw advances the state by one step and returns its new last word, which is the one-element draw sequence |
| XorShift.Step | CXorShift.hpp:55-59 | One update moves `y`, `z` and `w` down a place into `x`, `y` and `z`. XorShift.StepNextWord gives the new `w`. Its partners XorShift.UnstepOfStep and XorShift.StepOfUnstep show that the update is a bijection on states |
| XorShift.StepNextWord | CXorShift.hpp:55-59 | The new last word is `(w ^ (w >> c)) ^ (t ^ (t >> b))` with `t = x ^ (x << a)`, computed in C's unsigned 32-bit arithmetic from the old `x` and `w` |
| XorShift.ShlValue | CXorShift.hpp:55 | Shifting a word's bits up by `k` places gives the bits of C's `x << k` on a 32-bit unsigned value, which is `x * 2^k` modulo 2^32 |
| XorShift.ShrValue | CXorShift.hpp:59 | Shifting a word's bits down by `k` places gives the bits of C's `x >> k` on a 32-bit unsigned value |
| XorShift.ShrU32 | CXorShift.hpp:59 | `x >> k` on a 32-bit unsigned value is the quotient `x / 2^k`, rounded down |
| XorShift.XorValue | CXorShift.hpp:55-59 | The bitwise xor of two words' bits gives the bits of C's `a ^ b` on their values |
| XorShift.GenerateRangeAsWritten | CXorShift.hpp:73-87 | `min > max` throws without drawing. Every range but the full one agrees with the corrected range draw |
| XorShift.FullRangeDividesByZero | xorshift.hpp:86 | For `min = 0, max = 0xFFFFFFFF` the modulus wraps to 0 and the reduction divides by zero |
| XorShift.GenerateRange | xorshift.hpp:78-92 | `min > max` throws without drawing. Otherwise exactly one step is taken and the result lies in `[min, max]`: the draw reduced modulo the range width, which for the full range is the draw itself |
| XorShift.Reduce | CXorShift.hpp:81-82 | The reduced draw lies in `[min, max]` |
| XorShift.GenerateMaxAsWritten | CXorShift.hpp:97-108 | Any `max` below `0xFFFFFFFF` agrees with the corrected draw. `max = 0xFFFFFFFF` divides by zero |
| XorShift.GenerateMax | xorshift.hpp:102-113 | The result never exceeds `max`, exactly one step is taken, and the result is the draw modulo `max + 1`, which for `max = 0xFFFFFFFF` is the draw itself |
| XorShift.GenerateBit | CXorShift.hpp:117-119 | A bit draw is 0 or 1: the parity of the next draw |
| XorShift.BitIsLowestBit | xorshift.hpp:122-124 | The bit drawn is the lowest bit of the new last word |
| XorShift.LetterRoundTrip | xorshift.hpp:138-141 | The offsets 0..51 map one to one onto the letters 'a'..'z' then 'A'..'Z' |
| XorShift.GenerateAlphabet | xorshift.hpp:132-146 | The character drawn is always an ASCII letter: the letter at the draw's offset modulo 52 |
| XorShift.RangeSelfTest | xorshift.hpp:155-168 | The self test draws with `Generate(min, max)` as written. Its ranges are never empty and never the full range, so no draw throws, no value falls outside its range, and the test always passes |
| XorShift.TestCXorShift | CXorShift.hpp:128-141 | `TestCXorShift` always returns true |
| XorShift.TestXorShift | xorshift.hpp:155-168 | `testxorshift` always returns true |
| Statistic.Swap | statistic.hpp:54-59 | Exchanging neighbours keeps the elements and moves only the two positions |
| Statistic.BubbleSort | statistic.hpp:52-61 | The sorted array is ascending and a permutation of the copied data |
| Statistic.BubblePass | statistic.hpp:53-60 | One inner pass keeps the elements and brings the least remaining element to position `i`, leaving the sorted prefix in place |
| Statistic.New | statistic.hpp:44-62 | The constructed object holds the first `n` inputs, sorted ascending, and `size()` is `n` |
| Statistic.Copy | statistic.hpp:70-88 | The copy constructor yields an object equal to its source |
| Statistic.SortedUnique | CStatistic.hpp:70-88 | Two ascending arrangements of the same multiset are equal |
| Statistic.Min | statistic.hpp:129-132 | `min()` is an element of the data and no element is smaller |
| Statistic.Size | statistic.hpp:107-110 | The element count. It carries no contract of its own; `New` states it is the constructor's `n`, and the order statistics read only positions below it |
| Statistic.Max | CStatistic.hpp:107-110 | `max()` is an element of the data and no element is larger |
| Statistic.MinIsSmallestInput | math/statistic.hpp:131-134 | `min()` of a freshly built object is the smallest of the `n` input elements |
| Statistic.MaxIsLargestInput | math/statistic.hpp:120-123 | `max()` of a freshly built object is the largest of the `n` input elements |
| Statistic.OddMedian | statistic.hpp:184-186 | The middle element has at most half the data strictly below it and at most half strictly above it |
| Statistic.CountSplit | math/statistic.hpp:186-188 | In ascending data only elements before a position can be below the element there, and only elements after it above |
| Statistic.Median | math/statistic.hpp:183-196 | The median lies between the least and greatest elements. For an odd count it is the middle element, for an even count between the two middle elements |
| Statistic.Sum | CStatistic.hpp:129-139 | The sum of no elements is 0. Otherwise it lies between `size()` times the least and `size()` times the greatest element |
| Statistic.SumOfInputs | statistic.hpp:45-61 | `sum()` is the total of the `n` input elements, whatever their order, and `mean()` times `n` is that total |
| Statistic.TotalPermutation | statistic.hpp:140-150 | The total depends only on the multiset of elements, so sorting them does not change it |
| Statistic.TotalBounds | statistic.hpp:140-150 | A sum of `n` elements in `[lo, hi]` lies in `[n * lo, n * hi]` |
| Statistic.Mean | statistic.hpp:158-161 | The mean times the size is the sum, and the mean lies between the least and greatest elements |
| Statistic.Variance | CStatistic.hpp:188-201 | The variance is never negative and is zero when all elements are equal |
| Statistic.VarianceIdentity | statistic.hpp:202-215 | The variance equals the mean of the squares less the square of `mean()` |
| Statistic.MeanSquareIdentity | math/statistic.hpp:204-217 | For the true mean `m` of the data, the mean squared deviation from `m` is the mean of the squares less `m * m` |
| Statistic.MeanSquaredDeviation | math/statistic.hpp:209-214 | The mean squared deviation from any centre is never negative, and it is zero when every element equals the centre |
| Statistic.MeanTimesSize | math/statistic.hpp:160-163 | `mean()` times `size()` is the total of the elements |
| Statistic.CountingNumbers | math/statistic.hpp:46-64 | Built from `1, 2, ..., n`, the object holds exactly that sequence, its `min()` is 1, its `max()` is `n` and its sum is `n(n+1)/2` |
| Statistic.OneToTen | _t/math/statistic.t.cpp:8-13 | For the numbers 1 to 10, `min()` is 1, `max()` is 10, `mean()` is 5.5 and `size()` is 10 |
| Vector.Zero | math/vector.hpp:41-45 | A default vector has `N` zero elements, and a negative `N` is refused |
| Vector.FromRange | math/vector.hpp:47-52 | The iterator constructor holds exactly the elements of the range, in order |
| Vector.CopyIsIdentity | math/vector.hpp:106-116 | Copy construction and copy assignment reproduce the source vector |
| Vector.At | math/vector.hpp:94-98 | Reading index `i` succeeds exactly when `i` is within the held elements, and then returns element `i` |
| Vector.Assign | math/vector.hpp:100-104 | Writing index `i` succeeds exactly when `i` is within the held elements, and keeps the length |
| Vector.AssignThenAt | math/vector.hpp:94-104 | After a write, reading the same index gives the value written, and every other index reads as before |
| Vector.Combine | math/vector.hpp:60-80 | The loop succeeds exactly when both operands have `N` elements. Then the first `N` elements are combined pointwise and the rest of the left operand is kept |
| Vector.Add | math/vector.hpp:60-69 | `+` succeeds exactly when both operands have `N` elements, and adds the first `N` elements pointwise |
| Vector.Sub | math/vector.hpp:71-80 | `-` succeeds exactly when both operands have `N` elements, and subtracts the first `N` elements pointwise |
| Vector.AddThenSub | math/vector.hpp:60-80 | Subtracting what was added gives back the left operand |
| Vector.AddCommutes | math/vector.hpp:60-69 | Addition of two `N`-element vectors commutes |
| Vector.DotProduct | math/vector.hpp:82-92 | For `N <= 1` the result is the product of the first elements. Otherwise it succeeds exactly when both operands have `N` elements, and is the sum of the products of the first `N` element pairs |
| Vector.DotSymmetric | math/vector.hpp:82-92 | The dot product is symmetric in its operands |
| Vector.DotDistributes | math/vector.hpp:60-92 | The dot product distributes over vector addition |
| Vector.DotSelfNonNegative | math/vector.hpp:82-92 | The dot product of a vector with itself is never negative |
| Vector.Example | _t/math/vector.t.cpp:6-13 | Two default three-dimensional vectors, each written to `(1, 2, 3)` through the index operator: their sum is `(2, 4, 6)`, their difference is zero and their dot product is 14 |

## Left out

- Memory management is not modelled, because the model's values are immutable. This covers the destructors of `CHash`, `CBucket`, the statistics class and the vector, `XorShift_Delete`, and the `calloc` in `XorShift_NewWith`.
- CHash.Create: requires `0 < size`. A negative size and a size of 0 fail in different ways, and the library handles neither. For a negative size, `new LPCELL[size]` throws (CHash.hpp:111). `Initialize` catches the exception and returns `false` (CHash.hpp:121-123), and the constructor ignores that result. The table pointer and the size are then left uninitialised. A size of 0 allocates an empty array. The `hash % size` of every later `Set` or lookup then divides by zero (CHash.hpp:231, 270).
- CHash.Create: an allocation failure in `Initialize` (the `bad_alloc` it swallows and reports as `false`) is not modelled.
- CHash.Set: always succeeds. Two failure paths of the library are not modelled. The `new CELL` for an appended key can throw `bad_alloc`, which `Set` rethrows. `_tcsdup` can return NULL when it cannot allocate the copy; the cell is then linked with a NULL key, and a later `FindCell` on that chain hands the NULL to `_tcscmp`, which is undefined behaviour.
- CBucket.Set: always succeeds, and the bucket then owns a copy of the key. `Set` frees the old key before it allocates the new one (CBucket.hpp:105-107). This opens two failure paths that are not modelled. Setting a bucket from its own key, as in `b.Set(b.GetKey(), d)`, makes `strcpy` read the freed buffer. If `new char[length]` throws `bad_alloc`, `m_key` is left pointing at the freed buffer. The destructor then deletes that buffer a second time (CBucket.hpp:89-90).
- CHash.Set: requires a non-NULL key. The library only has a debug `_ASSERT` there, and the NULL case is undefined behaviour.
- The exceptions thrown by `CHash::Get` carry `c_str()` of a destroyed local string. The model carries the key itself in the error.
- The 64-bit signed product in `CalculateHash` can overflow, which is undefined behaviour in C++. The model takes the two's-complement wrap, and the bits the hash keeps do not depend on it.
- `CHash` declares no copy constructor or copy assignment (CHash.hpp:60-62), so C++ generates member-wise copies. A copy shares the original's bucket array and chains, and the destructors of both free the same chains. Copying a table is not modelled.
- Time-based default seeds (`time(NULL)` in the constructors and `XorShift_New`) become the explicit seed parameter.
- XorShift.Seed: its contract states only that the first word is the seed. The other three words come from the seeding recurrence, and what they guarantee is stated by XorShift.SeededStateNeverZero and XorShift.DistinctSeedsDistinctDraws.
- There is no lemma for Marsaglia's published first draws, 3701687786 and then 458299110 from the state (123456789, 362436069, 521288629, 88675123). Checking a concrete draw means evaluating 32-bit xors of literals bit by bit, which is too costly for Dafny's solver. XorShift.StepNextWord states the same computation for every state instead.
- `unsigned long` in `XorShift.h` is taken as 32 bits wide. On platforms where it is 64 bits, the C struct's words would not wrap at 2^32.
- The `min < 0 || max < 0` guards of the range draws are dead code for unsigned operands, so they are not modelled.
- Floating-point rounding is not modelled: `sum`, `mean`, `median` and `variance` are exact reals.
- `standard_deviation` (`GetStandardDeviation`) is the square root of the variance and is not modelled, because Dafny's reals have no square root.
- `mode` (`GetMode`) returns a reference to a temporary `0`, which is undefined behaviour, so it is not modelled.
- Statistic.New: requires `0 <= n <= |data|`. A negative `n` makes `new Ttype[n]` throw, and an `n` beyond the input reads out of bounds.
- Statistic.Min: requires at least one element. On an empty object `min()` reads `_data[0]` outside the array (statistic.hpp:130-132).
- Statistic.Max: requires at least one element. On an empty object `max()` reads `_data[-1]` (statistic.hpp:119-121).
- Statistic.Median: requires at least one element. On an empty object the even branch reads `_data[-1]` and `_data[0]` (statistic.hpp:182-195).
- Statistic.Mean: requires at least one element. On an empty object `mean()` returns the NaN of `0.0 / 0` (statistic.hpp:159-161).
- Statistic.Variance: requires at least one element. On an empty object `variance()` returns NaN, from the mean and from its final division by the size 0 (statistic.hpp:203-215).
- The statistics test constructs from a braced list, which matches none of the class's constructors. The model builds the object from the ten numbers with `n = 10`.
- `CBucket::SetData` is declared but never defined.
- The vector's move constructor and move assignment transfer ownership of the buffer, which an immutable value has no need for.
- The copy assignment of `vector` has no `return` statement, which is undefined behaviour. The model gives it the copy's value.
- Vector.DotProduct: requires both operands to hold an element, because `front()` of an empty `std::vector` is undefined behaviour.
- The vector's element type defaults to `double`. The model uses `int`, so sums and products are exact.
- The rest of the library (matrices, complex numbers, optimisation, text, file I/O, stop watches, exceptions) is outside this model.

## Findings

| source | as written | input that shows it | evidently intended | confidence | as-written member | corrected member |
|---|---|---|---|---|---|---|
| CXorShift.hpp:81 and xorshift.hpp:86 | `tmp %= (max - min) + 1` in 32-bit unsigned arithmetic | `min = 0, max = 0xFFFFFFFF`: the modulus wraps to 0 and the reduction divides by zero | the full range returns the draw unchanged, which already lies in `[min, max]` | not executed | XorShift.FullRangeDividesByZero | XorShift.GenerateRange |
| CXorShift.hpp:103 and xorshift.hpp:108 | `tmp %= max + 1` in 32-bit unsigned arithmetic | `max = 0xFFFFFFFF`: the modulus wraps to 0 and the reduction divides by zero | the draw is returned unchanged, since no value exceeds `max` | not executed | XorShift.GenerateMaxAsWritten | XorShift.GenerateMax |

=== FILE: binary.dfy ===
/** Unsigned binary arithmetic shared by the hash's mask and the
    generator's 32-bit words: powers of two, unique division, the bits of a
    number, and C's `&` and `^` on non-negative integers. */
module Binary {

  // ---------------------------------------------------------------------
  // Powers of two
  // ---------------------------------------------------------------------

  function Pow2(k: nat): (p: nat)
    ensures p >= 1
  {
    if k == 0 then 1 else 2 * Pow2(k - 1)
  }

  lemma {:induction false} Pow2Add(a: nat, b: nat)
    ensures Pow2(a + b) == Pow2(a) * Pow2(b)
    decreases a
  {
    if a > 0 {
      Pow2Add(a - 1, b);
    }
  }

  /** The weights of a 16-bit and a 32-bit word. */
  lemma Pow2Of32()
    ensures Pow2(16) == 0x1_0000
    ensures Pow2(32) == 0x1_0000_0000
  {
    assert Pow2(4) == 16;
    assert Pow2(8) == 256 by { assert Pow2(8) == 16 * Pow2(4); }
    assert Pow2(16) == 0x1_0000 by { Pow2Add(8, 8); }
    Pow2Add(16, 16);
  }

  // ---------------------------------------------------------------------
  // Division
  // ---------------------------------------------------------------------

  /** A number written as `q * d + r` with `0 <= r < d` has quotient `q`
      and remainder `r`. */
  lemma DivModUnique(a: int, d: int, q: int, r: int)
    requires d > 0 && 0 <= r < d && a == q * d + r
    ensures a % d == r && a / d == q
  {
    QuotientUnique(q, r, a / d, a % d, d);
  }

  /** Two ways of writing a number as `q * d + r` with `0 <= r < d` agree. */
  lemma QuotientUnique(q: int, r: int, q': int, r': int, d: int)
    requires d > 0 && 0 <= r < d && 0 <= r' < d && q * d + r == q' * d + r'
    ensures q == q'
  {
    if q > q' {
      MultiplesApart(q, q', d);
    } else if q < q' {
      MultiplesApart(q', q, d);
    }
  }

  /** Distinct multiples of `d` are at least `d` apart. */
  lemma MultiplesApart(q: int, q': int, d: int)
    requires q > q' && d > 0
    ensures q * d - q' * d >= d
  {
    var k := q - q' - 1;
    assert q * d - q' * d == k * d + d;
    NonNegativeProduct(k, d);
  }

  lemma NonNegativeProduct(a: int, b: int)
    requires a >= 0 && b >= 0
    ensures a * b >= 0
  {
  }

  /** Adding a multiple of `d` does not change the remainder. */
  lemma ShiftedMod(r: int, q: int, d: int)
    requires d > 0
    ensures (q * d + r) % d == r % d
  {
    var a := q * d + r;
    assert a == (q + r / d) * d + r % d;
    DivModUnique(a, d, q + r / d, r % d);
  }

  // ---------------------------------------------------------------------
  // The bits of a number
  // ---------------------------------------------------------------------

  function Zeros(k: nat): (r: seq<bool>)
    ensures |r| == k
  {
    seq(k, _ => false)
  }

  /** The unsigned integer a bit sequence holds, least significant bit first. */
  function Value(b: seq<bool>): nat
  {
    if |b| == 0 then 0 else (if b[0] then 1 else 0) + 2 * Value(b[1..])
  }

  /** The low `k` bits of `n`, least significant first. */
  function Bits(n: nat, k: nat): (b: seq<bool>)
    ensures |b| == k
  {
    if k == 0 then [] else [n % 2 == 1] + Bits(n / 2, k - 1)
  }

  lemma {:induction false} ValueBound(b: seq<bool>)
    ensures Value(b) < Pow2(|b|)
  {
    if |b| > 0 {
      ValueBound(b[1..]);
    }
  }

  /** Reading the low `k` bits of `n` gives `n` modulo 2^k. */
  lemma {:induction false} ValueOfLowBits(n: nat, k: nat)
    ensures Value(Bits(n, k)) == n % Pow2(k)
    decreases k
  {
    if k == 0 {
      DivModUnique(n, 1, n, 0);
    } else {
      ValueOfLowBits(n / 2, k - 1);
      ValueStep(n, k);
      HalveMod(n, k);
    }
  }

  /** `n` modulo 2^k: the lowest bit, then `n / 2` modulo 2^(k-1). */
  lemma HalveMod(n: nat, k: nat)
    requires k > 0
    ensures n % Pow2(k) == 2 * ((n / 2) % Pow2(k - 1)) + n % 2
  {
    var p := Pow2(k - 1);
    var q, r := (n / 2) / p, (n / 2) % p;
    assert n == q * (2 * p) + (2 * r + n % 2);
    DivModUnique(n, 2 * p, q, 2 * r + n % 2);
  }

  /** Reading the low `k` bits of a `k`-bit value back gives the value. */
  lemma ValueOfBits(n: nat, k: nat)
    requires n < Pow2(k)
    ensures Value(Bits(n, k)) == n
  {
    ValueOfLowBits(n, k);
    DivModUnique(n, Pow2(k), 0, n);
  }

  /** The value of the low `k` bits: the lowest bit, then the rest. */
  lemma ValueStep(n: nat, k: nat)
    requires k > 0
    ensures Value(Bits(n, k)) == 2 * Value(Bits(n / 2, k - 1)) + n % 2
  {
    assert Bits(n, k)[1..] == Bits(n / 2, k - 1);
  }

  /** Writing a bit sequence's value back in as many bits gives it back. */
  lemma {:induction false} BitsOfValue(b: seq<bool>)
    ensures Bits(Value(b), |b|) == b
  {
    if |b| > 0 {
      var rest := Value(b[1..]);
      var v := Value(b);
      assert v == (if b[0] then 1 else 0) + 2 * rest;
      assert v % 2 == (if b[0] then 1 else 0) && v / 2 == rest;
      calc {
        Bits(v, |b|);
        [v % 2 == 1] + Bits(v / 2, |b| - 1);
        [b[0]] + Bits(rest, |b[1..]|);
        { BitsOfValue(b[1..]); }
        [b[0]] + b[1..];
        b;
      }
    }
  }

  lemma {:induction false} BitsOfZero(k: nat)
    ensures Bits(0, k) == Zeros(k)
  {
    if k > 0 {
      BitsOfZero(k - 1);
    }
  }

  /** `n >> k`: the bits of `n` above the lowest `k`, one halving per
      position. */
  function Above(n: nat, k: nat): nat
  {
    if k == 0 then n else Above(n / 2, k - 1)
  }

  /** `n` is its bits above the lowest `k`, moved back up, plus its low `k`
      bits; so `n >> k` is `n / 2^k`. */
  lemma {:induction false} AboveIsQuotient(n: nat, k: nat)
    ensures n == Above(n, k) * Pow2(k) + n % Pow2(k)
    ensures Above(n, k) == n / Pow2(k)
    decreases k
  {
    if k == 0 {
      DivModUnique(n, 1, n, 0);
    } else {
      AboveIsQuotient(n / 2, k - 1);
      HalveMod(n, k);
      var q, p := Above(n, k), Pow2(k - 1);
      assert n == 2 * (n / 2) + n % 2;
      assert n == q * (2 * p) + n % Pow2(k);
      DivModUnique(n, Pow2(k), q, n % Pow2(k));
    }
  }

  /** The bits of an `a + b`-bit value above the lowest `a` form a `b`-bit
      value. */
  lemma {:induction false} AboveBound(n: nat, a: nat, b: nat)
    requires n < Pow2(a + b)
    ensures Above(n, a) < Pow2(b)
    decreases a
  {
    if a > 0 {
      AboveBound(n / 2, a - 1, b);
    }
  }

  /** Shifting right never increases a value. */
  lemma {:induction false} AboveAtMost(n: nat, k: nat)
    ensures Above(n, k) <= n
    decreases k
  {
    if k > 0 {
      AboveAtMost(n / 2, k - 1);
    }
  }

  /** Shifting `l * 2^k` right by `k` gives `l` back. */
  lemma {:induction false} AboveMultiple(l: nat, k: nat)
    ensures Above(l * Pow2(k), k) == l
    decreases k
  {
    if k > 0 {
      var m := l * Pow2(k - 1);
      assert l * Pow2(k) == 2 * m;
      AboveMultiple(l, k - 1);
    }
  }

  /** The low `a + b` bits of `n` are its low `a` bits followed by the low
      `b` bits of `n / 2^a`. */
  lemma {:induction false} BitsSplit(n: nat, a: nat, b: nat)
    ensures Bits(n, a + b) == Bits(n, a) + Bits(Above(n, a), b)
    decreases a
  {
    if a > 0 {
      var m, bit := n / 2, [n % 2 == 1];
      BitsSplit(m, a - 1, b);
      var lo, hi := Bits(m, a - 1), Bits(Above(m, a - 1), b);
      assert Bits(m, a - 1 + b) == lo + hi;
      assert Above(n, a) == Above(m, a - 1);
      assert Bits(n, a + b) == bit + Bits(m, a - 1 + b);
      assert Bits(n, a) == bit + lo;
      assert bit + (lo + hi) == (bit + lo) + hi;
    }
  }

  /** Adding a multiple of 2^k leaves the low `k` bits alone. */
  lemma {:induction false} BitsAddMultiple(h: nat, l: nat, k: nat)
    ensures Bits(h * Pow2(k) + l, k) == Bits(l, k)
    decreases k
  {
    if k > 0 {
      var m := h * Pow2(k - 1);
      assert h * Pow2(k) + l == 2 * m + l;
      BitsAddMultiple(h, l / 2, k - 1);
      assert (2 * m + l) / 2 == m + l / 2 && (2 * m + l) % 2 == l % 2;
    }
  }

  // ---------------------------------------------------------------------
  // C's `&` and `^` on non-negative integers
  // ---------------------------------------------------------------------

  /** `a & b`: bit `i` of the result is set exactly when bit `i` is set in
      both operands. */
  function BitAnd(a: nat, b: nat): nat
  {
    if a == 0 || b == 0 then 0
    else 2 * BitAnd(a / 2, b / 2) + (if a % 2 == 1 && b % 2 == 1 then 1 else 0)
  }

  /** `a ^ b`: bit `i` of the result is set exactly when bit `i` is set in
      one operand and not the other. */
  function BitXor(a: nat, b: nat): nat
    decreases a + b
  {
    if a == 0 && b == 0 then 0
    else 2 * BitXor(a / 2, b / 2) + (if a % 2 != b % 2 then 1 else 0)
  }

  /** Bitwise xor of two bit sequences of equal length. */
  function XorBits(a: seq<bool>, b: seq<bool>): (r: seq<bool>)
    requires |a| == |b|
    ensures |r| == |a|
  {
    if |a| == 0 then [] else [a[0] != b[0]] + XorBits(a[1..], b[1..])
  }

  lemma {:induction false} XorBitsAt(a: seq<bool>, b: seq<bool>)
    requires |a| == |b|
    ensures forall i | 0 <= i < |a| :: XorBits(a, b)[i] == (a[i] != b[i])
  {
    if |a| > 0 {
      XorBitsAt(a[1..], b[1..]);
    }
  }

  /** The bits of `a ^ b` are the xor of the bits of `a` and `b`. */
  lemma {:induction false} BitsOfXor(a: nat, b: nat, k: nat)
    ensures Bits(BitXor(a, b), k) == XorBits(Bits(a, k), Bits(b, k))
    decreases k
  {
    if k > 0 {
      BitsOfXor(a / 2, b / 2, k - 1);
      var x := BitXor(a, b);
      XorStep(a, b);
      var ba, bb := Bits(a, k), Bits(b, k);
      assert ba[0] == (a % 2 == 1) && ba[1..] == Bits(a / 2, k - 1);
      assert bb[0] == (b % 2 == 1) && bb[1..] == Bits(b / 2, k - 1);
      assert XorBits(ba, bb) == [ba[0] != bb[0]] + XorBits(ba[1..], bb[1..]);
      assert Bits(x, k) == [x % 2 == 1] + Bits(x / 2, k - 1);
    }
  }

  /** The lowest bit of `a ^ b`, then the rest; this holds for zero too. */
  lemma XorStep(a: nat, b: nat)
    ensures BitXor(a, b) % 2 == (if a % 2 != b % 2 then 1 else 0)
    ensures BitXor(a, b) / 2 == BitXor(a / 2, b / 2)
  {
  }

  /** `a ^ b` of two `k`-bit values is a `k`-bit value. */
  lemma {:induction false} XorBound(a: nat, b: nat, k: nat)
    requires a < Pow2(k) && b < Pow2(k)
    ensures BitXor(a, b) < Pow2(k)
    decreases k
  {
    if k > 0 && (a > 0 || b > 0) {
      XorBound(a / 2, b / 2, k - 1);
    }
  }

  /** Shifting left by `k` and keeping `j + k` bits keeps the low `j` bits
      of the shifted value. */
  lemma WrapShift(n: nat, k: nat, j: nat)
    ensures (n * Pow2(k)) % Pow2(j + k) == (n % Pow2(j)) * Pow2(k)
  {
    Pow2Add(j, k);
    ScaledMod(n, Pow2(j), Pow2(k));
  }

  /** `(n * q) % (p * q)` is `(n % p) * q`. */
  lemma ScaledMod(n: nat, p: nat, q: nat)
    requires p > 0 && q > 0
    ensures (n * q) % (p * q) == (n % p) * q
  {
    var h, l := n / p, n % p;
    assert n * q == h * (p * q) + l * q by {
      assert n == h * p + l;
    }
    assert l * q < p * q by {
      NonNegativeProduct(p - 1 - l, q);
    }
    NonNegativeProduct(l, q);
    DivModUnique(n * q, p * q, h, l * q);
  }

  /** The low `k + j` bits of `l * 2^k`: `k` zeros, then the low `j` bits
      of `l`. */
  lemma ShiftedBits(l: nat, k: nat, j: nat)
    ensures Bits(l * Pow2(k), k + j) == Zeros(k) + Bits(l, j)
  {
    BitsSplit(l * Pow2(k), k, j);
    BitsAddMultiple(l, 0, k);
    BitsOfZero(k);
    AboveMultiple(l, k);
  }

  /** The low `j` bits of `n` depend only on `n` modulo 2^j. */
  lemma LowBitsOfMod(n: nat, j: nat)
    ensures Bits(n, j) == Bits(n % Pow2(j), j)
  {
    AboveIsQuotient(n, j);
    BitsAddMultiple(Above(n, j), n % Pow2(j), j);
  }
}

=== FILE: cbucket.dfy ===
/** `Lib::CBucket<T>`: a holder of one key/data pair that owns a private
    copy of its key.  A key buffer is modelled as the characters of the
    `char` array, terminator included when there is one. */
module CBucket {

  datatype Bucket<T> = Bucket(key: seq<char>, data: T)

  /** `strlen`: the position of the first NUL of a C string. */
  function Strlen(buf: seq<char>): (n: nat)
    requires '\0' in buf
    ensures n < |buf| && buf[n] == '\0'
    ensures forall i | 0 <= i < n :: buf[i] != '\0'
  {
    if buf[0] == '\0' then 0 else 1 + Strlen(buf[1..])
  }

  /** The text a C string denotes: its characters before the terminator. */
  function Text(buf: seq<char>): seq<char>
    requires '\0' in buf
  {
    buf[..Strlen(buf)]
  }

  /** The constructor: `m_key = new char[0]`; the data member is default
      constructed, which the caller supplies as `init`. */
  function New<T>(init: T): (b: Bucket<T>)
    ensures |GetKey(b)| == 0
    ensures GetData(b) == init
  {
    Bucket([], init)
  }

  /** `Set(key, data)`: free the old buffer, allocate `strlen(key) + 1`
      characters, `strcpy` the key into them and store the data.  Returns 1. */
  function Set<T>(b: Bucket<T>, key: seq<char>, data: T): (r: (Bucket<T>, int))
    requires '\0' in key
    ensures r.1 == 1
    ensures '\0' in GetKey(r.0) && Text(GetKey(r.0)) == Text(key)
    ensures GetKey(r.0) == Text(key) + ['\0']
    ensures GetData(r.0) == data
  {
    var length := Strlen(key) + 1;
    (Bucket(key[..length], data), 1)
  }

  /** `GetKey`: the owned key buffer. */
  function GetKey<T>(b: Bucket<T>): seq<char>
  {
    b.key
  }

  /** `GetData`: the stored data. */
  function GetData<T>(b: Bucket<T>): T
  {
    b.data
  }

  /** A second `Set` leaves no trace of the first key or data, whatever the
      two key lengths. */
  lemma SetReplacesEverything<T>(b: Bucket<T>, k1: seq<char>, d1: T, k2: seq<char>, d2: T)
    requires '\0' in k1 && '\0' in k2
    ensures Set(Set(b, k1, d1).0, k2, d2).0 == Set(New(d1), k2, d2).0
    ensures Text(GetKey(Set(Set(b, k1, d1).0, k2, d2).0)) == Text(k2)
  {
  }

  /** Whatever follows the terminator in the caller's buffer is not copied:
      two keys with the same text give the same bucket. */
  lemma {:induction false} OnlyTextIsCopied<T>(b: Bucket<T>, k1: seq<char>, k2: seq<char>, d: T)
    requires '\0' in k1 && '\0' in k2
    requires Text(k1) == Text(k2)
    ensures Set(b, k1, d) == Set(b, k2, d)
  {
    var n := Strlen(k1);
    assert |Text(k1)| == n && |Text(k2)| == Strlen(k2);
    assert k1[..n + 1] == Text(k1) + ['\0'];
    assert k2[..n + 1] == Text(k2) + ['\0'];
  }
}

=== FILE: chash.dfy ===
/** The fixed-capacity string-keyed hash table `Lib::CHash<T>`.

    The table is an array of `size` buckets; each bucket holds a singly
    linked chain of (key, value) cells.  Here a chain is a sequence (head
    first) and the table is the sequence of its chains.  Keys are the
    character codes of a NUL-terminated string, without the terminator. */
module CHash {
  import opened Wrappers
  import opened Seqs
  import opened Binary

  /** The character codes of a C string: no code is the terminator 0. */
  type Key = k: seq<int> | forall i | 0 <= i < |k| :: k[i] != 0

  /** The table size used by the default constructor. */
  const DefaultTableSize: int := 64

  /** The largest value of the 32-bit signed size parameter. */
  const MaxTableSize: int := 0x7FFF_FFFF

  datatype Cell<V> = Cell(key: Key, value: V)

  datatype Table<V> = Table(buckets: seq<seq<Cell<V>>>)

  /** What `Get` throws: a NULL key, or a key that was never set (the
      message carries the key). */
  datatype HashError = NullKey | KeyNotFound(key: Key)

  // ---------------------------------------------------------------------
  // Hash function
  // ---------------------------------------------------------------------

  /** The sum of the character codes, accumulated front to back. */
  function Sum(k: seq<int>): int
  {
    if |k| == 0 then 0 else k[0] + Sum(k[1..])
  }

  /** `CalculateHash`: square the code sum in 64-bit arithmetic, `&` the
      square with the mask and shift the result down by 16.  The product is
      taken modulo 2^64 (the two's-complement wrap of the 64-bit multiply).
      The masked value is never negative, so the right shift is a division
      by 2^16. */
  function CalculateHash(k: Key): (h: int)
    ensures 0 <= h < 0x1_0000
    ensures h == (Sum(k) * Sum(k) / 0x1_0000) % 0x1_0000
  {
    var s := Sum(k);
    var sq := (s * s) % 0x1_0000_0000_0000_0000;
    MiddleBits(s * s);
    BitAnd(sq, HashMask) / 0x1_0000
  }

  /** The mask `0xFFFFFFFF << 16`.  Both operands are 32-bit unsigned, so
      the shift is computed modulo 2^32 before the value widens to 64 bits. */
  const HashMask: nat := (0xFFFF_FFFF * 0x1_0000) % 0x1_0000_0000

  /** The shift loses the upper half of the shifted value: the mask is
      0xFFFF0000, the mask of bits 16..31. */
  lemma MaskIsLowMiddle()
    ensures HashMask == 0xFFFF_0000
    ensures HashMask == Mask(16, 32)
  {
    assert HashMask == 0xFFFF_0000;
    MaskValue(16, 32);
    Pow2Of32();
  }

  /** Reducing modulo 2^64 keeps the low 32 and the low 16 bits. */
  lemma WrapKeepsLowBits(v: int)
    ensures (v % 0x1_0000_0000_0000_0000) % 0x1_0000_0000 == v % 0x1_0000_0000
    ensures (v % 0x1_0000_0000_0000_0000) % 0x1_0000 == v % 0x1_0000
  {
    var hi := v / 0x1_0000_0000_0000_0000;
    var sq := v % 0x1_0000_0000_0000_0000;
    assert v == (hi * 0x1_0000_0000) * 0x1_0000_0000 + sq;
    ShiftedMod(sq, hi * 0x1_0000_0000, 0x1_0000_0000);
    assert v == (hi * 0x1_0000_0000_0000) * 0x1_0000 + sq;
    ShiftedMod(sq, hi * 0x1_0000_0000_0000, 0x1_0000);
  }

  /** Bits 16..31 of `v`: what lies between its low 16 and low 32 bits,
      shifted down by 16. */
  lemma MaskedMiddle(v: int)
    ensures (v % 0x1_0000_0000 - v % 0x1_0000) / 0x1_0000 == (v / 0x1_0000) % 0x1_0000
  {
    var q := v / 0x1_0000;
    var r := v % 0x1_0000;
    var q2 := q / 0x1_0000;
    var r2 := q % 0x1_0000;
    assert v == q2 * 0x1_0000_0000 + (r2 * 0x1_0000 + r);
    DivModUnique(v, 0x1_0000_0000, q2, r2 * 0x1_0000 + r);
    DivModUnique(r2 * 0x1_0000, 0x1_0000, r2, 0);
  }

  /** `&`-ing the 64-bit wrapped square with the mask and shifting right by
      16 yields bits 16..31 of the exact square. */
  lemma MiddleBits(v: nat)
    ensures BitAnd(v % 0x1_0000_0000_0000_0000, HashMask) / 0x1_0000 == (v / 0x1_0000) % 0x1_0000
  {
    var sq := v % 0x1_0000_0000_0000_0000;
    MaskIsLowMiddle();
    MaskBits(sq, 16, 32);
    Pow2Of32();
    WrapKeepsLowBits(v);
    MaskedMiddle(v);
  }

  // ---------------------------------------------------------------------
  // The mask
  // ---------------------------------------------------------------------

  /** The mask with bits `lo .. hi - 1` set. */
  function Mask(lo: nat, hi: nat): (m: nat)
    ensures lo < hi ==> m > 0
  {
    if lo >= hi then 0
    else if lo == 0 then 2 * Mask(0, hi - 1) + 1
    else 2 * Mask(lo - 1, hi - 1)
  }

  /** The mask of bits `lo .. hi - 1` is 2^hi - 2^lo. */
  lemma {:induction false} MaskValue(lo: nat, hi: nat)
    requires lo <= hi
    ensures Mask(lo, hi) == Pow2(hi) - Pow2(lo)
    decreases hi
  {
    if lo < hi {
      if lo == 0 {
        MaskValue(0, hi - 1);
      } else {
        MaskValue(lo - 1, hi - 1);
      }
    }
  }

  /** `x & Mask(lo, hi)` keeps what lies between the low `lo` bits and the
      low `hi` bits of `x`. */
  lemma MaskBits(x: nat, lo: nat, hi: nat)
    requires lo <= hi
    ensures BitAnd(x, Mask(lo, hi)) == x % Pow2(hi) - x % Pow2(lo)
  {
    MaskLowBits(x, lo, hi);
    ValueOfLowBits(x, hi);
    ValueOfLowBits(x, lo);
  }

  lemma {:induction false} MaskLowBits(x: nat, lo: nat, hi: nat)
    requires lo <= hi
    ensures BitAnd(x, Mask(lo, hi)) == Value(Bits(x, hi)) - Value(Bits(x, lo))
    decreases lo
  {
    if lo == 0 {
      KeepLowBits(x, hi);
    } else if x == 0 {
      ValueOfBits(0, hi);
      ValueOfBits(0, lo);
    } else if lo < hi {
      MaskLowBits(x / 2, lo - 1, hi - 1);
      ValueStep(x, hi);
      ValueStep(x, lo);
    }
  }

  /** `x & (2^k - 1)` is the low `k` bits of `x`. */
  lemma {:induction false} KeepLowBits(x: nat, k: nat)
    ensures BitAnd(x, Mask(0, k)) == Value(Bits(x, k))
    decreases k
  {
    if x == 0 {
      ValueOfBits(0, k);
    } else if k > 0 {
      KeepLowBits(x / 2, k - 1);
      ValueStep(x, k);
    }
  }

  lemma EmptyKeyHashesToZero()
    ensures CalculateHash([]) == 0
  {
    var k: Key := [];
    assert Sum(k) == 0;
    assert CalculateHash(k) == (Sum(k) * Sum(k) / 0x1_0000) % 0x1_0000;
  }

  lemma {:induction false} SumAppend(a: seq<int>, b: seq<int>)
    ensures Sum(a + b) == Sum(a) + Sum(b)
  {
    if |a| == 0 {
      assert a + b == b;
    } else {
      assert (a + b)[1..] == a[1..] + b;
      SumAppend(a[1..], b);
    }
  }

  /** The code sum does not depend on the order of the characters. */
  lemma {:induction false} SumPermutation(a: seq<int>, b: seq<int>)
    requires multiset(a) == multiset(b)
    ensures Sum(a) == Sum(b)
    decreases |a|
  {
    if |a| == 0 {
      assert |b| == |multiset(b)| == 0;
    } else {
      var j := MatchFirst(a, b);
      SumRemoveAt(b, j);
      SumPermutation(a[1..], b[..j] + b[j + 1..]);
    }
  }

  /** The first element of `a` sits at some index `j` of its rearrangement
      `b`, and the rest of `a` rearranges `b` without that index. */
  lemma MatchFirst(a: seq<int>, b: seq<int>) returns (j: int)
    requires |a| > 0 && multiset(a) == multiset(b)
    ensures 0 <= j < |b| && b[j] == a[0]
    ensures multiset(a[1..]) == multiset(b[..j] + b[j + 1..])
  {
    assert a == [a[0]] + a[1..];
    j := IndexOf(b, a[0]);
    MultisetRemoveAt(b, j);
  }

  /** Taking out the element at `j` takes its code out of the sum. */
  lemma SumRemoveAt(b: seq<int>, j: int)
    requires 0 <= j < |b|
    ensures Sum(b) == b[j] + Sum(b[..j] + b[j + 1..])
  {
    assert b == b[..j] + b[j..];
    SumAppend(b[..j], b[j..]);
    assert b[j..][1..] == b[j + 1..];
    SumAppend(b[..j], b[j + 1..]);
  }

  /** Keys that are rearrangements of each other share a hash. */
  lemma PermutedKeysCollide(a: Key, b: Key)
    requires multiset(a) == multiset(b)
    ensures CalculateHash(a) == CalculateHash(b)
  {
    SumPermutation(a, b);
  }

  /** The bucket a key lives in: `CalculateHash(key) % m_hash_table_size`. */
  function BucketIndex(k: Key, size: int): (i: int)
    requires size > 0
    ensures 0 <= i < size
  {
    CalculateHash(k) % size
  }

  // ---------------------------------------------------------------------
  // Representation invariant and abstraction
  // ---------------------------------------------------------------------

  /** Every cell sits in the bucket its key hashes to, and no key occurs
      twice in a chain.  Together these make keys unique across the table. */
  ghost predicate Valid<V>(t: Table<V>)
  {
    && |t.buckets| > 0
    && (forall i, j | 0 <= i < |t.buckets| && 0 <= j < |t.buckets[i]| ::
          BucketIndex(t.buckets[i][j].key, |t.buckets|) == i)
    && (forall i, j1, j2 |
          && 0 <= i < |t.buckets|
          && 0 <= j1 < |t.buckets[i]|
          && 0 <= j2 < |t.buckets[i]|
          && t.buckets[i][j1].key == t.buckets[i][j2].key
          :: j1 == j2)
  }

  /** The keys stored anywhere in the table. */
  ghost function Keys<V>(t: Table<V>): set<Key>
  {
    set i, j | 0 <= i < |t.buckets| && 0 <= j < |t.buckets[i]| :: t.buckets[i][j].key
  }

  ghost function ValueOf<V>(t: Table<V>, k: Key): V
    requires k in Keys(t)
  {
    var i, j :| 0 <= i < |t.buckets| && 0 <= j < |t.buckets[i]| && t.buckets[i][j].key == k;
    t.buckets[i][j].value
  }

  /** The map the table represents. */
  ghost function Contents<V>(t: Table<V>): map<Key, V>
  {
    map k | k in Keys(t) :: ValueOf(t, k)
  }

  /** The number of cells in all chains. */
  function Count<V>(buckets: seq<seq<Cell<V>>>): nat
  {
    if |buckets| == 0 then 0 else |buckets[0]| + Count(buckets[1..])
  }

  /** In a valid table two cells with the same key are the same cell. */
  lemma KeysUniqueAcrossTable<V>(t: Table<V>, i1: int, j1: int, i2: int, j2: int)
    requires Valid(t)
    requires 0 <= i1 < |t.buckets| && 0 <= j1 < |t.buckets[i1]|
    requires 0 <= i2 < |t.buckets| && 0 <= j2 < |t.buckets[i2]|
    requires t.buckets[i1][j1].key == t.buckets[i2][j2].key
    ensures i1 == i2 && j1 == j2
  {
  }

  /** In a valid table the abstract map sends each cell's key to that
      cell's value. */
  lemma ContentsAtCell<V>(t: Table<V>, i: int, j: int)
    requires Valid(t)
    requires 0 <= i < |t.buckets| && 0 <= j < |t.buckets[i]|
    ensures t.buckets[i][j].key in Contents(t)
    ensures Contents(t)[t.buckets[i][j].key] == t.buckets[i][j].value
  {
    var k := t.buckets[i][j].key;
    assert k in Keys(t);
    var i2, j2 :| 0 <= i2 < |t.buckets| && 0 <= j2 < |t.buckets[i2]| && t.buckets[i2][j2].key == k
                  && ValueOf(t, k) == t.buckets[i2][j2].value;
    KeysUniqueAcrossTable(t, i, j, i2, j2);
  }

  // ---------------------------------------------------------------------
  // Construction
  // ---------------------------------------------------------------------

  /** `Initialize(size)` as called by `CHash(size)`: `size` empty buckets. */
  function Create<V>(size: int): (t: Table<V>)
    requires 0 < size <= MaxTableSize
    ensures Valid(t)
    ensures |t.buckets| == size
    ensures Contents(t) == map[]
    ensures Count(t.buckets) == 0
  {
    var t := Table(seq(size, _ => []));
    EmptyCount(t.buckets);
    t
  }

  /** `CHash()`: a table of `DefaultTableSize` buckets. */
  function CreateDefault<V>(): (t: Table<V>)
    ensures Valid(t)
    ensures |t.buckets| == 64
    ensures Contents(t) == map[]
  {
    Create(DefaultTableSize)
  }

  lemma {:induction false} EmptyCount<V>(buckets: seq<seq<Cell<V>>>)
    requires forall i | 0 <= i < |buckets| :: buckets[i] == []
    ensures Count(buckets) == 0
  {
    if |buckets| > 0 {
      EmptyCount(buckets[1..]);
    }
  }

  // ---------------------------------------------------------------------
  // Chain search
  // ---------------------------------------------------------------------

  /** `FindCell`'s walk along a chain: follow the links from the head and
      stop at the first cell whose key compares equal to `k`, or fall off
      the end.  The result is that cell's position, if any. */
  function Find<V>(chain: seq<Cell<V>>, k: Key): (r: Option<nat>)
    ensures r.Some? ==> r.value < |chain| && chain[r.value].key == k
    ensures r.Some? ==> forall j | 0 <= j < r.value :: chain[j].key != k
    ensures r.None? ==> forall j | 0 <= j < |chain| :: chain[j].key != k
  {
    if |chain| == 0 then None
    else if chain[0].key == k then Some(0)
    else match Find(chain[1..], k)
      case None => None
      case Some(j) => Some(j + 1)
  }

  /** `FindCell(key)`: search the chain of bucket `hash(key) % size`.  The
      cell found is the table's only cell with that key, and "not found"
      means the key is nowhere in the table. */
  function FindCell<V>(t: Table<V>, k: Key): (r: Option<Cell<V>>)
    requires Valid(t)
    ensures r.Some? <==> k in Contents(t)
    ensures r.Some? ==> r.value == Cell(k, Contents(t)[k])
    ensures r.Some? ==> r.value in t.buckets[BucketIndex(k, |t.buckets|)]
  {
    var i := BucketIndex(k, |t.buckets|);
    match Find(t.buckets[i], k)
    case None =>
      AbsentWhenNotInChain(t, k);
      None
    case Some(j) =>
      ContentsAtCell(t, i, j);
      Some(t.buckets[i][j])
  }

  /** A key missing from its own bucket is missing from the table. */
  lemma AbsentWhenNotInChain<V>(t: Table<V>, k: Key)
    requires Valid(t)
    requires forall j | 0 <= j < |t.buckets[BucketIndex(k, |t.buckets|)]| ::
               t.buckets[BucketIndex(k, |t.buckets|)][j].key != k
    ensures k !in Keys(t)
    ensures k !in Contents(t)
  {
    forall i, j | 0 <= i < |t.buckets| && 0 <= j < |t.buckets[i]|
      ensures t.buckets[i][j].key != k
    {
      assert BucketIndex(t.buckets[i][j].key, |t.buckets|) == i;
    }
  }

  // ---------------------------------------------------------------------
  // Lookup
  // ---------------------------------------------------------------------

  /** `Get(key)`: the stored value, or the exception for a NULL or unknown
      key. */
  function Get<V>(t: Table<V>, key: Option<Key>): (r: Result<V, HashError>)
    requires Valid(t)
    ensures key.None? ==> r == Err(NullKey)
    ensures key.Some? && key.value !in Contents(t) ==> r == Err(KeyNotFound(key.value))
    ensures key.Some? && key.value in Contents(t) ==> r == Ok(Contents(t)[key.value])
  {
    match key
    case None => Err(NullKey)
    case Some(k) =>
      match FindCell(t, k)
      case Some(cell) => Ok(cell.value)
      case None => Err(KeyNotFound(k))
  }

  /** `operator[]`: rethrows whatever `Get` throws, so it behaves as `Get`. */
  function Lookup<V>(t: Table<V>, key: Option<Key>): (r: Result<V, HashError>)
    requires Valid(t)
    ensures r.Ok? <==> key.Some? && key.value in Contents(t)
    ensures r.Ok? ==> r.value == Contents(t)[key.value]
    ensures key.None? ==> r == Err(NullKey)
    ensures key.Some? && r.Err? ==> r == Err(KeyNotFound(key.value))
  {
    Get(t, key)
  }

  // ---------------------------------------------------------------------
  // Insert / overwrite
  // ---------------------------------------------------------------------

  /** `Set(key, data)`: overwrite the value of the cell holding `key`, or
      append a new cell at the tail of chain `hash(key) % size`. */
  function Set<V>(t: Table<V>, k: Key, v: V): (t': Table<V>)
    requires Valid(t)
    ensures Valid(t')
    ensures |t'.buckets| == |t.buckets|
    ensures Contents(t') == Contents(t)[k := v]
  {
    var i := BucketIndex(k, |t.buckets|);
    match Find(t.buckets[i], k)
    case Some(j) =>
      var t' := Table(t.buckets[i := t.buckets[i][j := Cell(k, v)]]);
      ContentsAtCell(t, i, j);
      OverwriteContents(t, k, v, i, j, t');
      t'
    case None =>
      var t' := Table(t.buckets[i := t.buckets[i] + [Cell(k, v)]]);
      AbsentWhenNotInChain(t, k);
      AppendContents(t, k, v, t');
      t'
  }

  /** Where `Set` puts the cell: only the key's own chain changes; a known
      key is overwritten in place, keeping the chain's keys and its other
      cells; a new key is appended at the tail. */
  lemma SetChain<V>(t: Table<V>, k: Key, v: V)
    requires Valid(t)
    ensures var t', i := Set(t, k, v), BucketIndex(k, |t.buckets|);
            && |t'.buckets| == |t.buckets|
            && (forall b | 0 <= b < |t.buckets| && b != i :: t'.buckets[b] == t.buckets[b])
            && (k in Contents(t) ==>
                  && |t'.buckets[i]| == |t.buckets[i]|
                  && (forall j | 0 <= j < |t.buckets[i]| :: t'.buckets[i][j].key == t.buckets[i][j].key)
                  && (forall j | 0 <= j < |t.buckets[i]| && t.buckets[i][j].key != k ::
                        t'.buckets[i][j] == t.buckets[i][j]))
            && (k !in Contents(t) ==> t'.buckets[i] == t.buckets[i] + [Cell(k, v)])
  {
    var i := BucketIndex(k, |t.buckets|);
    match Find(t.buckets[i], k)
    case Some(j) =>
      ContentsAtCell(t, i, j);
    case None =>
      AbsentWhenNotInChain(t, k);
  }

  lemma OverwriteContents<V>(t: Table<V>, k: Key, v: V, i: int, j: int, t': Table<V>)
    requires Valid(t)
    requires i == BucketIndex(k, |t.buckets|)
    requires 0 <= j < |t.buckets[i]| && t.buckets[i][j].key == k
    requires t' == Table(t.buckets[i := t.buckets[i][j := Cell(k, v)]])
    ensures Valid(t')
    ensures Contents(t') == Contents(t)[k := v]
  {
    OverwriteKeys(t, k, v, i, j, t');
    assert k in Keys(t);
    forall k2 | k2 in Keys(t') ensures Contents(t')[k2] == Contents(t)[k := v][k2] {
      var a, b :| 0 <= a < |t'.buckets| && 0 <= b < |t'.buckets[a]| && t'.buckets[a][b].key == k2;
      OverwriteValueAt(t, k, v, i, j, t', a, b);
    }
    ContentsUpdated(t, t', k, v);
  }

  /** Two abstract maps agree when their key sets and their values do. */
  lemma ContentsUpdated<V>(t: Table<V>, t': Table<V>, k: Key, v: V)
    requires Keys(t') == Keys(t) + {k}
    requires forall k2 | k2 in Keys(t') :: Contents(t')[k2] == Contents(t)[k := v][k2]
    ensures Contents(t') == Contents(t)[k := v]
  {
  }

  /** After an overwrite each cell holds the updated map's value for its key. */
  lemma OverwriteValueAt<V>(t: Table<V>, k: Key, v: V, i: int, j: int, t': Table<V>, a: int, b: int)
    requires Valid(t) && Valid(t')
    requires 0 <= i < |t.buckets| && 0 <= j < |t.buckets[i]| && t.buckets[i][j].key == k
    requires t' == Table(t.buckets[i := t.buckets[i][j := Cell(k, v)]])
    requires 0 <= a < |t'.buckets| && 0 <= b < |t'.buckets[a]|
    ensures var k2 := t'.buckets[a][b].key;
            k2 in Contents(t') && Contents(t')[k2] == Contents(t)[k := v][k2]
  {
    ContentsAtCell(t', a, b);
    if a != i || b != j {
      ContentsAtCell(t, a, b);
      if t.buckets[a][b].key == k {
        KeysUniqueAcrossTable(t, a, b, i, j);
      }
    }
  }

  /** Overwriting a value in place keeps every key where it was. */
  lemma OverwriteKeys<V>(t: Table<V>, k: Key, v: V, i: int, j: int, t': Table<V>)
    requires Valid(t)
    requires 0 <= i < |t.buckets| && 0 <= j < |t.buckets[i]| && t.buckets[i][j].key == k
    requires t' == Table(t.buckets[i := t.buckets[i][j := Cell(k, v)]])
    ensures Valid(t') && Keys(t') == Keys(t)
  {
    forall a | 0 <= a < |t.buckets| ensures |t'.buckets[a]| == |t.buckets[a]| { }
    assert forall a, b | 0 <= a < |t.buckets| && 0 <= b < |t.buckets[a]| ::
      t'.buckets[a][b].key == t.buckets[a][b].key;
    SameLayout(t, t');
  }

  /** A table whose cells hold the same keys in the same places as a valid
      table is valid and stores the same keys. */
  lemma SameLayout<V>(t: Table<V>, t': Table<V>)
    requires Valid(t) && |t'.buckets| == |t.buckets|
    requires forall a | 0 <= a < |t.buckets| :: |t'.buckets[a]| == |t.buckets[a]|
    requires forall a, b | 0 <= a < |t.buckets| && 0 <= b < |t.buckets[a]| ::
      t'.buckets[a][b].key == t.buckets[a][b].key
    ensures Valid(t') && Keys(t') == Keys(t)
  {
    forall k2 | k2 in Keys(t') ensures k2 in Keys(t) {
      var a, b :| 0 <= a < |t'.buckets| && 0 <= b < |t'.buckets[a]| && t'.buckets[a][b].key == k2;
      assert t.buckets[a][b].key == k2;
    }
    forall k2 | k2 in Keys(t) ensures k2 in Keys(t') {
      var a, b :| 0 <= a < |t.buckets| && 0 <= b < |t.buckets[a]| && t.buckets[a][b].key == k2;
      assert t'.buckets[a][b].key == k2;
    }
  }

  lemma AppendContents<V>(t: Table<V>, k: Key, v: V, t': Table<V>)
    requires Valid(t)
    requires k !in Keys(t)
    requires t' == Table(t.buckets[BucketIndex(k, |t.buckets|) :=
                           t.buckets[BucketIndex(k, |t.buckets|)] + [Cell(k, v)]])
    ensures Valid(t')
    ensures Contents(t') == Contents(t)[k := v]
  {
    var i := BucketIndex(k, |t.buckets|);
    var n := |t.buckets[i]|;
    AppendValid(t, k, v, t');
    AppendKeys(t, k, v, t');
    forall k2 | k2 in Keys(t') ensures Contents(t')[k2] == Contents(t)[k := v][k2] {
      var a, b :| 0 <= a < |t'.buckets| && 0 <= b < |t'.buckets[a]| && t'.buckets[a][b].key == k2;
      ContentsAtCell(t', a, b);
      if !(a == i && b == n) {
        ContentsAtCell(t, a, b);
        assert t'.buckets[a][b] == t.buckets[a][b];
      }
    }
    ContentsUpdated(t, t', k, v);
  }

  lemma AppendValid<V>(t: Table<V>, k: Key, v: V, t': Table<V>)
    requires Valid(t)
    requires k !in Keys(t)
    requires t' == Table(t.buckets[BucketIndex(k, |t.buckets|) :=
                           t.buckets[BucketIndex(k, |t.buckets|)] + [Cell(k, v)]])
    ensures Valid(t')
  {
    var i := BucketIndex(k, |t.buckets|);
    var n := |t.buckets[i]|;
    assert forall b | 0 <= b < n :: t.buckets[i][b].key in Keys(t);
  }

  lemma AppendKeys<V>(t: Table<V>, k: Key, v: V, t': Table<V>)
    requires Valid(t)
    requires t' == Table(t.buckets[BucketIndex(k, |t.buckets|) :=
                           t.buckets[BucketIndex(k, |t.buckets|)] + [Cell(k, v)]])
    ensures Keys(t') == Keys(t) + {k}
  {
    var i := BucketIndex(k, |t.buckets|);
    var n := |t.buckets[i]|;
    forall k2 | k2 in Keys(t') ensures k2 in Keys(t) + {k} {
      var a, b :| 0 <= a < |t'.buckets| && 0 <= b < |t'.buckets[a]| && t'.buckets[a][b].key == k2;
      if !(a == i && b == n) {
        assert t.buckets[a][b].key == k2;
      }
    }
    forall k2 | k2 in Keys(t) ensures k2 in Keys(t') {
      var a, b :| 0 <= a < |t.buckets| && 0 <= b < |t.buckets[a]| && t.buckets[a][b].key == k2;
      assert t'.buckets[a][b].key == k2;
    }
    assert t'.buckets[i][n].key == k;
  }

  /** Replacing one chain changes the cell count by the difference of the
      two chain lengths. */
  lemma {:induction false} CountUpdate<V>(buckets: seq<seq<Cell<V>>>, i: int, chain: seq<Cell<V>>)
    requires 0 <= i < |buckets|
    ensures Count(buckets[i := chain]) == Count(buckets) - |buckets[i]| + |chain|
  {
    if i > 0 {
      assert buckets[i := chain][1..] == buckets[1..][i - 1 := chain];
      CountUpdate(buckets[1..], i - 1, chain);
    }
  }

  /** `Set` adds a cell exactly when the key is new. */
  lemma SetCount<V>(t: Table<V>, k: Key, v: V)
    requires Valid(t)
    ensures Count(Set(t, k, v).buckets) == Count(t.buckets) + (if k in Contents(t) then 0 else 1)
  {
    var i := BucketIndex(k, |t.buckets|);
    var t' := Set(t, k, v);
    SetChain(t, k, v);
    assert t'.buckets == t.buckets[i := t'.buckets[i]];
    CountUpdate(t.buckets, i, t'.buckets[i]);
  }

  // ---------------------------------------------------------------------
  // Properties relating several calls
  // ---------------------------------------------------------------------

  /** `Set(k, v)` followed by `Get(k)` returns `v`. */
  lemma SetThenGet<V>(t: Table<V>, k: Key, v: V)
    requires Valid(t)
    ensures Get(Set(t, k, v), Some(k)) == Ok(v)
  {
  }

  /** Setting one key leaves every other key's lookup as it was. */
  lemma SetIndependent<V>(t: Table<V>, k: Key, v: V, k2: Key)
    requires Valid(t)
    requires k != k2
    ensures Get(Set(t, k, v), Some(k2)) == Get(t, Some(k2))
  {
  }

  /** A second `Set` of the same key wins and adds no cell. */
  lemma OverwriteKeepsCount<V>(t: Table<V>, k: Key, v1: V, v2: V)
    requires Valid(t)
    ensures Get(Set(Set(t, k, v1), k, v2), Some(k)) == Ok(v2)
    ensures Count(Set(Set(t, k, v1), k, v2).buckets) == Count(Set(t, k, v1).buckets)
  {
    SetCount(Set(t, k, v1), k, v2);
  }

  /** A key that was never set is reported missing, never defaulted. */
  lemma GetMissing<V>(t: Table<V>, k: Key)
    requires Valid(t)
    requires k !in Contents(t)
    ensures Get(t, Some(k)) == Err(KeyNotFound(k))
  {
  }

  /** The one-character keys "a", "b" and "c". */
  const KeyA: Key := [97]
  const KeyB: Key := [98]
  const KeyC: Key := [99]

  /** With a single bucket every key collides; the chain search still
      returns the value of the right key, and the one chain holds all
      three cells. */
  lemma OneBucketCollisions(t0: Table<int>)
    requires |t0.buckets| == 1 && t0.buckets[0] == []
    ensures Valid(t0)
    ensures var t := Set(Set(Set(t0, KeyA, 1), KeyB, 2), KeyC, 3);
            && Get(t, Some(KeyA)) == Ok(1)
            && Get(t, Some(KeyB)) == Ok(2)
            && Get(t, Some(KeyC)) == Ok(3)
            && |t.buckets[0]| == 3
  {
    OneBucketChain(t0);
  }

  /** The three `Set`s of `OneBucketCollisions` append to the one chain. */
  lemma OneBucketChain(t0: Table<int>)
    requires |t0.buckets| == 1 && t0.buckets[0] == []
    ensures Valid(t0)
    ensures var t := Set(Set(Set(t0, KeyA, 1), KeyB, 2), KeyC, 3);
            && Contents(t) == map[KeyA := 1, KeyB := 2, KeyC := 3]
            && |t.buckets[0]| == 3
  {
    OneBucketFirstTwo(t0);
    var t2 := Set(Set(t0, KeyA, 1), KeyB, 2);
    assert KeyC != KeyA && KeyC != KeyB by { assert KeyC[0] != KeyA[0] && KeyC[0] != KeyB[0]; }
    AppendToSoleBucket(t2, KeyC, 3);
  }

  lemma OneBucketFirstTwo(t0: Table<int>)
    requires |t0.buckets| == 1 && t0.buckets[0] == []
    ensures Valid(t0)
    ensures var t := Set(Set(t0, KeyA, 1), KeyB, 2);
            && |t.buckets| == 1
            && Contents(t) == map[KeyA := 1, KeyB := 2]
            && |t.buckets[0]| == 2
  {
    assert Valid(t0) && Contents(t0) == map[] by {
      assert Keys(t0) == {};
    }
    var t1 := Set(t0, KeyA, 1);
    AppendToSoleBucket(t0, KeyA, 1);
    assert KeyB != KeyA by { assert KeyB[0] != KeyA[0]; }
    AppendToSoleBucket(t1, KeyB, 2);
  }

  lemma AppendToSoleBucket<V>(t: Table<V>, k: Key, v: V)
    requires Valid(t) && |t.buckets| == 1 && k !in Contents(t)
    ensures Set(t, k, v).buckets[0] == t.buckets[0] + [Cell(k, v)]
  {
    assert BucketIndex(k, 1) == 0;
    SetChain(t, k, v);
  }

  /** The one-character keys "x", "y" and "z". */
  const KeyX: Key := [120]
  const KeyY: Key := [121]
  const KeyZ: Key := [122]

  /** An empty table of four buckets: set "x" to 1 and "y" to 2; both read
      back and "z" is missing. */
  lemma FourBucketScenario(t0: Table<int>)
    requires Valid(t0) && |t0.buckets| == 4 && Contents(t0) == map[]
    ensures var t := Set(Set(t0, KeyX, 1), KeyY, 2);
            && Get(t, Some(KeyX)) == Ok(1)
            && Get(t, Some(KeyY)) == Ok(2)
            && Get(t, Some(KeyZ)) == Err(KeyNotFound(KeyZ))
  {
    FourBucketContents(t0);
  }

  lemma FourBucketContents(t0: Table<int>)
    requires Valid(t0) && Contents(t0) == map[]
    ensures Contents(Set(Set(t0, KeyX, 1), KeyY, 2)) == map[KeyX := 1, KeyY := 2]
  {
    assert KeyY != KeyX by { assert KeyY[0] != KeyX[0]; }
  }
}

=== FILE: seqs.dfy ===
/** Facts about sequences and their multisets that the hash table's code
    sum and the statistics' total both rely on: a rearrangement keeps every
    element, so taking one element out of each side keeps them equal. */
module Seqs {

  /** An element of the multiset of `b` occurs at some index of `b`. */
  lemma IndexOf(b: seq<int>, x: int) returns (j: int)
    requires x in multiset(b)
    ensures 0 <= j < |b| && b[j] == x
  {
    j :| 0 <= j < |b| && b[j] == x;
  }

  /** Removing the element at `j` removes one copy of it from the multiset. */
  lemma MultisetRemoveAt(b: seq<int>, j: int)
    requires 0 <= j < |b|
    ensures multiset(b[..j] + b[j + 1..]) == multiset(b) - multiset{b[j]}
  {
    assert b == b[..j] + [b[j]] + b[j + 1..];
  }
}

=== FILE: statistic.dfy ===
/** The descriptive-statistics class that appears three times in the
    library, as `lib::statistic`, `Lib::CStatistic` and
    `lib::math::statistic`.  The three share one implementation: the
    constructor copies `n` elements and bubble-sorts them ascending, and
    the order statistics read fixed positions of the sorted array.  The
    element type is instantiated with `int`. */
module Statistic {
  import opened Seqs

  /** The object's state: `_data[0 .. _size)`. */
  datatype Statistic = Statistic(data: seq<int>)

  ghost predicate Sorted(s: seq<int>)
  {
    forall p, q | 0 <= p < q < |s| :: s[p] <= s[q]
  }

  /** What every constructor establishes: the data is in ascending order. */
  ghost predicate Valid(st: Statistic)
  {
    Sorted(st.data)
  }

  // ---------------------------------------------------------------------
  // Construction
  // ---------------------------------------------------------------------

  /** `s` with positions `j - 1` and `j` exchanged, as the three-line swap
      through `temp` does. */
  function Swap(s: seq<int>, j: int): (r: seq<int>)
    requires 0 < j < |s|
    ensures |r| == |s| && r[j - 1] == s[j] && r[j] == s[j - 1]
    ensures forall k | 0 <= k < |s| && k != j - 1 && k != j :: r[k] == s[k]
    ensures multiset(r) == multiset(s)
  {
    s[j - 1 := s[j]][j := s[j - 1]]
  }

  /** The sorting loops of the constructors: for each `i` from the left, a
      downward pass carries the least remaining element to position `i`. */
  method BubbleSort(input: seq<int>) returns (a: seq<int>)
    ensures Sorted(a)
    ensures multiset(a) == multiset(input) && |a| == |input|
  {
    a := input;
    var n := |a|;
    var i := 0;
    while i < n - 1
      invariant n == |a| && multiset(a) == multiset(input)
      invariant 0 <= i <= n
      invariant n >= 1 ==> i <= n - 1
      // a[..i] is in final position: sorted, and below everything after it
      invariant forall p, q | 0 <= p < i && p < q < n :: a[p] <= a[q]
    {
      a := BubblePass(a, i);
      i := i + 1;
    }
  }

  /** The inner loop: `j` runs down from the right end to `i + 1`, swapping
      adjacent elements out of order.  Afterwards `a[i]` is the least of
      `a[i..]`, and the finished prefix is untouched. */
  method BubblePass(input: seq<int>, i: int) returns (a: seq<int>)
    requires 0 <= i < |input|
    requires forall p, q | 0 <= p < i && p < q < |input| :: input[p] <= input[q]
    ensures |a| == |input| && multiset(a) == multiset(input)
    ensures forall p, q | 0 <= p <= i && p < q < |a| :: a[p] <= a[q]
  {
    a := input;
    var n := |a|;
    var j := n - 1;
    while j > i
      invariant n == |a| && multiset(a) == multiset(input)
      invariant i <= j <= n - 1
      invariant forall p, q | 0 <= p < i && p < q < n :: a[p] <= a[q]
      // a[j] is the least of a[j..]
      invariant forall k | j <= k < n :: a[j] <= a[k]
    {
      if a[j - 1] > a[j] {
        a := Swap(a, j);
      }
      j := j - 1;
    }
  }

  /** `statistic(data, n)`: copy the first `n` elements, then sort. */
  method New(data: seq<int>, n: int) returns (st: Statistic)
    requires 0 <= n <= |data|
    ensures Valid(st)
    ensures multiset(st.data) == multiset(data[..n])
    ensures Size(st) == n
  {
    var copy: seq<int> := [];
    var i := 0;
    while i < n
      invariant 0 <= i <= n
      invariant copy == data[..i]
    {
      copy := copy + [data[i]];
      i := i + 1;
    }
    var sorted := BubbleSort(copy);
    st := Statistic(sorted);
  }

  /** The copy constructor copies the source's already sorted array and
      sorts it again, which leaves it as it was. */
  method Copy(obj: Statistic) returns (st: Statistic)
    requires Valid(obj)
    ensures st == obj
  {
    st := New(obj.data, |obj.data|);
    assert obj.data[..|obj.data|] == obj.data;
    SortedUnique(st.data, obj.data);
  }

  /** A multiset has one ascending arrangement. */
  lemma {:induction false} SortedUnique(a: seq<int>, b: seq<int>)
    requires Sorted(a) && Sorted(b) && multiset(a) == multiset(b)
    ensures a == b
    decreases |a|
  {
    assert |b| == |multiset(b)| == |multiset(a)| == |a|;
    if |a| > 0 {
      // both first elements are the least element of the common multiset
      assert a[0] == b[0] by {
        HeadIsLeast(a, b[0]);
        HeadIsLeast(b, a[0]);
      }
      MultisetTail(a);
      MultisetTail(b);
      SortedUnique(a[1..], b[1..]);
    }
  }

  lemma MultisetTail(s: seq<int>)
    requires |s| > 0
    ensures multiset(s[1..]) == multiset(s) - multiset{s[0]}
  {
    assert s == [s[0]] + s[1..];
  }

  /** The first element of a sorted sequence is below every element. */
  lemma HeadIsLeast(s: seq<int>, x: int)
    requires Sorted(s) && x in multiset(s)
    ensures s[0] <= x
  {
    assert x in s;
  }

  // ---------------------------------------------------------------------
  // Queries
  // ---------------------------------------------------------------------

  /** `size()`: the number of elements held. */
  function Size(st: Statistic): int
  {
    |st.data|
  }

  /** `min()` (`GetMin()`): the first sorted element, the least of all. */
  function Min(st: Statistic): (m: int)
    requires Valid(st) && |st.data| >= 1
    ensures m in st.data
    ensures forall k | 0 <= k < |st.data| :: m <= st.data[k]
  {
    st.data[0]
  }

  /** `max()` (`GetMax()`): the last sorted element, the greatest of all. */
  function Max(st: Statistic): (m: int)
    requires Valid(st) && |st.data| >= 1
    ensures m in st.data
    ensures forall k | 0 <= k < |st.data| :: st.data[k] <= m
  {
    st.data[|st.data| - 1]
  }

  /** How many elements of `s` lie strictly below / above `m`. */
  function CountBelow(s: seq<int>, m: int): nat
  {
    if |s| == 0 then 0 else (if s[0] < m then 1 else 0) + CountBelow(s[1..], m)
  }

  function CountAbove(s: seq<int>, m: int): nat
  {
    if |s| == 0 then 0 else (if s[0] > m then 1 else 0) + CountAbove(s[1..], m)
  }

  /** The middle element of an odd number of sorted elements: no more than
      half of the data lies strictly on either side of it. */
  function OddMedian(st: Statistic): (m: int)
    requires Valid(st) && |st.data| % 2 == 1
    ensures m in st.data
    ensures CountBelow(st.data, m) <= |st.data| / 2
    ensures CountAbove(st.data, m) <= |st.data| / 2
  {
    var h := |st.data| / 2;
    var m := st.data[h];
    CountSplit(st.data, h, m);
    m
  }

  /** `median()` (`GetMedian()`): the middle element for an odd count, the
      mean of the two middle elements for an even one.  The `double`
      result is modelled as an exact real. */
  function Median(st: Statistic): (r: real)
    requires Valid(st) && |st.data| >= 1
    ensures Min(st) as real <= r <= Max(st) as real
    ensures |st.data| % 2 == 1 ==> r == OddMedian(st) as real
    ensures |st.data| % 2 == 0 ==>
              st.data[|st.data| / 2 - 1] as real <= r <= st.data[|st.data| / 2] as real
  {
    var n := |st.data|;
    if n % 2 == 1 then st.data[n / 2] as real
    else (st.data[n / 2 - 1] + st.data[n / 2]) as real / 2.0
  }

  /** The exact sum of a sequence's elements. */
  function Total(s: seq<int>): int
  {
    if |s| == 0 then 0 else Total(s[..|s| - 1]) + s[|s| - 1]
  }

  /** `sum()` (`GetSum()`): the elements added into a `double` starting at
      0.0, modelled exactly.  It lies between `size()` times the least and
      `size()` times the greatest element. */
  function Sum(st: Statistic): (r: real)
    requires Valid(st)
    ensures |st.data| == 0 ==> r == 0.0
    ensures |st.data| >= 1 ==>
              (|st.data| * Min(st)) as real <= r <= (|st.data| * Max(st)) as real
  {
    if |st.data| == 0 then 0.0
    else
      TotalBounds(st.data, Min(st), Max(st));
      Total(st.data) as real
  }

  /** `m` times the number of elements of `s` is their total. */
  predicate IsMeanOf(m: real, s: seq<int>)
  {
    m * (|s| as real) == Total(s) as real
  }

  /** `mean()` (`GetAverage()`): `sum() / size()`, which lies between the
      least and the greatest element. */
  function Mean(st: Statistic): (r: real)
    requires Valid(st) && |st.data| >= 1
    ensures r * |st.data| as real == Sum(st)
    ensures Min(st) as real <= r <= Max(st) as real
  {
    var n := |st.data| as real;
    QuotientBounds(Sum(st), n, Min(st) as real, Max(st) as real);
    Sum(st) / n
  }

  /** The sum of `(x - m) * (x - m)` over the elements `x` of `s`. */
  function SquaredDeviations(s: seq<int>, m: real): real
  {
    if |s| == 0 then 0.0
    else SquaredDeviations(s[..|s| - 1], m) + (s[|s| - 1] as real - m) * (s[|s| - 1] as real - m)
  }

  /** The mean of the squared deviations of `s` from `m`: never negative,
      and zero when every element is `m`. */
  function MeanSquaredDeviation(s: seq<int>, m: real): (r: real)
    requires |s| >= 1
    ensures r >= 0.0
    ensures (forall k | 0 <= k < |s| :: s[k] as real == m) ==> r == 0.0
  {
    var d, n := SquaredDeviations(s, m), |s| as real;
    SquaredDeviationsNonNegative(s, m);
    SquaredDeviationsOfConstant(s, m);
    QuotientSign(d, n);
    d / n
  }

  /** `variance()` (`GetVariance()`): the mean squared deviation from
      `mean()`.  It is never negative, and it is zero when all elements are
      equal. */
  function Variance(st: Statistic): (r: real)
    requires Valid(st) && |st.data| >= 1
    ensures r >= 0.0
    ensures Min(st) == Max(st) ==> r == 0.0
  {
    MeanSquaredDeviation(st.data, Mean(st))
  }

  /** Dividing by a positive number keeps the sign, and zero stays zero. */
  lemma QuotientSign(d: real, n: real)
    requires n > 0.0
    ensures d >= 0.0 ==> d / n >= 0.0
    ensures d == 0.0 ==> d / n == 0.0
  {
    if d >= 0.0 {
      assert d / n * n == d;
    }
  }

  lemma {:induction false} TotalBounds(s: seq<int>, lo: int, hi: int)
    requires forall k | 0 <= k < |s| :: lo <= s[k] <= hi
    ensures |s| * lo <= Total(s) <= |s| * hi
  {
    if |s| > 0 {
      TotalBounds(s[..|s| - 1], lo, hi);
      assert |s| * lo == (|s| - 1) * lo + lo;
      assert |s| * hi == (|s| - 1) * hi + hi;
    }
  }

  lemma {:induction false} SquaredDeviationsNonNegative(s: seq<int>, m: real)
    ensures SquaredDeviations(s, m) >= 0.0
  {
    if |s| > 0 {
      SquaredDeviationsNonNegative(s[..|s| - 1], m);
      var d := s[|s| - 1] as real - m;
      assert d * d >= 0.0 by {
        if d < 0.0 {
          assert d * d == (-d) * (-d);
        }
      }
    }
  }

  /** When every element equals `m`, no element deviates from it. */
  lemma {:induction false} SquaredDeviationsOfConstant(s: seq<int>, m: real)
    ensures (forall k | 0 <= k < |s| :: s[k] as real == m) ==> SquaredDeviations(s, m) == 0.0
  {
    if |s| > 0 {
      SquaredDeviationsOfConstant(s[..|s| - 1], m);
    }
  }

  /** Dividing bounds on `n` times a quantity by a positive `n`. */
  lemma QuotientBounds(a: real, n: real, lo: real, hi: real)
    requires n > 0.0 && n * lo <= a <= n * hi
    ensures a / n * n == a
    ensures lo <= a / n <= hi
  {
    var q := a / n;
    assert q * n == a;
    assert (q - lo) * n == a - n * lo;
    assert (hi - q) * n == n * hi - a;
  }

  /** The numbers `1, ..., n` add up to `n (n + 1) / 2`. */
  lemma {:induction false} TotalOfCountingNumbers(s: seq<int>)
    requires forall k | 0 <= k < |s| :: s[k] == k + 1
    ensures 2 * Total(s) == |s| * (|s| + 1)
  {
    if |s| > 0 {
      TotalOfCountingNumbers(s[..|s| - 1]);
      assert |s| * (|s| + 1) == (|s| - 1) * |s| + 2 * |s|;
    }
  }

  /** Splitting a sequence splits its total. */
  lemma {:induction false} TotalAppend(a: seq<int>, b: seq<int>)
    ensures Total(a + b) == Total(a) + Total(b)
    decreases |b|
  {
    if |b| == 0 {
      assert a + b == a;
    } else {
      var b' := b[..|b| - 1];
      assert (a + b)[..|a + b| - 1] == a + b';
      TotalAppend(a, b');
    }
  }

  /** The total is one element plus the total of the others. */
  lemma TotalRemoveAt(b: seq<int>, j: int)
    requires 0 <= j < |b|
    ensures Total(b) == b[j] + Total(b[..j] + b[j + 1..])
  {
    var front, back := b[..j], b[j + 1..];
    var upTo := front + [b[j]];
    assert b == upTo + back;
    TotalAppend(upTo, back);
    assert upTo[..|upTo| - 1] == front;
    TotalAppend(front, back);
  }

  /** The total depends only on the multiset of elements, so sorting does
      not change it. */
  lemma {:induction false} TotalPermutation(a: seq<int>, b: seq<int>)
    requires multiset(a) == multiset(b)
    ensures Total(a) == Total(b)
    decreases |a|
  {
    if |a| == 0 {
      assert |b| == |multiset(b)| == 0;
    } else {
      var x, a' := a[|a| - 1], a[..|a| - 1];
      assert a == a' + [x];
      assert x in multiset(b) by { assert x in a; }
      var j := IndexOf(b, x);
      TotalRemoveAt(b, j);
      MultisetRemoveAt(b, j);
      assert multiset(a') == multiset(a) - multiset{x};
      TotalPermutation(a', b[..j] + b[j + 1..]);
    }
  }

  /** The sum of the squares of the elements. */
  function SumOfSquares(s: seq<int>): int
  {
    if |s| == 0 then 0 else SumOfSquares(s[..|s| - 1]) + s[|s| - 1] * s[|s| - 1]
  }

  /** `q - 2 m t + n m^2`: the squared deviations from `m` of `n` elements
      whose total is `t` and whose squares total `q`. */
  function Expanded(q: real, t: real, n: real, m: real): real
  {
    q - 2.0 * m * t + n * (m * m)
  }

  /** The mean of the squares of the elements. */
  function MeanOfSquares(s: seq<int>): real
    requires |s| >= 1
  {
    (SumOfSquares(s) as real) / (|s| as real)
  }

  /** Expanding the squares: the squared deviations from `m` are the sum of
      squares, less `2 m` times the total, plus `|s|` times `m * m`. */
  lemma {:induction false} SquaredDeviationsExpand(s: seq<int>, m: real)
    ensures SquaredDeviations(s, m) == Expanded(SumOfSquares(s) as real, Total(s) as real, |s| as real, m)
  {
    if |s| > 0 {
      var s' := s[..|s| - 1];
      var x := s[|s| - 1];
      SquaredDeviationsExpand(s', m);
      assert (x as real - m) * (x as real - m) == (x * x) as real - 2.0 * m * (x as real) + m * m;
      assert (|s| as real) * (m * m) == (|s'| as real) * (m * m) + m * m;
      assert 2.0 * m * (Total(s) as real) == 2.0 * m * (Total(s') as real) + 2.0 * m * (x as real);
    }
  }

  lemma {:induction false} CountAppend(a: seq<int>, b: seq<int>, m: int)
    ensures CountBelow(a + b, m) == CountBelow(a, m) + CountBelow(b, m)
    ensures CountAbove(a + b, m) == CountAbove(a, m) + CountAbove(b, m)
  {
    if |a| == 0 {
      assert a + b == b;
    } else {
      assert (a + b)[1..] == a[1..] + b;
      CountAppend(a[1..], b, m);
    }
  }

  lemma {:induction false} CountBound(s: seq<int>, m: int)
    ensures CountBelow(s, m) <= |s| && CountAbove(s, m) <= |s|
  {
    if |s| > 0 {
      CountBound(s[1..], m);
    }
  }

  lemma {:induction false} CountNone(s: seq<int>, m: int)
    ensures (forall k | 0 <= k < |s| :: s[k] >= m) ==> CountBelow(s, m) == 0
    ensures (forall k | 0 <= k < |s| :: s[k] <= m) ==> CountAbove(s, m) == 0
  {
    if |s| > 0 {
      CountNone(s[1..], m);
      assert forall k | 1 <= k < |s| :: s[1..][k - 1] == s[k];
    }
  }

  /** In a sorted sequence, only elements before position `h` can lie
      below `s[h]`, and only elements after it above. */
  lemma CountSplit(s: seq<int>, h: int, m: int)
    requires Sorted(s) && 0 <= h < |s| && m == s[h]
    ensures CountBelow(s, m) <= h
    ensures CountAbove(s, m) <= |s| - h - 1
  {
    BelowOnlyBefore(s, h, m);
    AboveOnlyAfter(s, h, m);
  }

  lemma BelowOnlyBefore(s: seq<int>, h: int, m: int)
    requires Sorted(s) && 0 <= h < |s| && m == s[h]
    ensures CountBelow(s, m) <= h
  {
    var front, back := s[..h], s[h..];
    assert forall k | 0 <= k < |back| :: back[k] >= m by {
      forall k | 0 <= k < |back| ensures back[k] >= m {
        assert back[k] == s[h + k];
      }
    }
    CountNone(back, m);
    assert s == front + back;
    CountAppend(front, back, m);
    CountBound(front, m);
  }

  lemma AboveOnlyAfter(s: seq<int>, h: int, m: int)
    requires Sorted(s) && 0 <= h < |s| && m == s[h]
    ensures CountAbove(s, m) <= |s| - h - 1
  {
    var front, back := s[..h + 1], s[h + 1..];
    assert forall k | 0 <= k < |front| :: front[k] <= m by {
      forall k | 0 <= k < |front| ensures front[k] <= m {
        assert front[k] == s[k];
      }
    }
    CountNone(front, m);
    assert s == front + back;
    CountAppend(front, back, m);
    CountBound(back, m);
  }

  // ---------------------------------------------------------------------
  // Relations to the constructor's input
  // ---------------------------------------------------------------------

  /** For `n >= 1`, `min()` of a freshly built object is the smallest of the
      `n` input elements. */
  lemma MinIsSmallestInput(data: seq<int>, n: int, st: Statistic)
    requires 1 <= n <= |data|
    requires Valid(st) && multiset(st.data) == multiset(data[..n])
    ensures |st.data| == n
    ensures Min(st) in data[..n]
    ensures forall k | 0 <= k < n :: Min(st) <= data[k]
  {
    assert |st.data| == |multiset(st.data)| == |multiset(data[..n])| == n;
    assert Min(st) in multiset(data[..n]);
    forall k | 0 <= k < n ensures Min(st) <= data[k] {
      assert data[k] == data[..n][k];
      assert data[k] in multiset(st.data);
    }
  }

  /** For `n >= 1`, `max()` of a freshly built object is the largest of the
      `n` input elements. */
  lemma MaxIsLargestInput(data: seq<int>, n: int, st: Statistic)
    requires 1 <= n <= |data|
    requires Valid(st) && multiset(st.data) == multiset(data[..n])
    ensures |st.data| == n
    ensures Max(st) in data[..n]
    ensures forall k | 0 <= k < n :: data[k] <= Max(st)
  {
    assert |st.data| == |multiset(st.data)| == |multiset(data[..n])| == n;
    assert Max(st) in multiset(data[..n]);
    forall k | 0 <= k < n ensures data[k] <= Max(st) {
      assert data[k] == data[..n][k];
      assert data[k] in multiset(st.data);
    }
  }

  /** `sum()` adds up exactly the `n` input elements, whatever their
      order, and `mean()` is that total shared out over the `n` elements. */
  lemma SumOfInputs(data: seq<int>, n: int, st: Statistic)
    requires 0 <= n <= |data|
    requires Valid(st) && multiset(st.data) == multiset(data[..n])
    ensures |st.data| == n
    ensures Sum(st) == Total(data[..n]) as real
    ensures n >= 1 ==> Mean(st) * n as real == Total(data[..n]) as real
  {
    assert |st.data| == |multiset(st.data)| == |multiset(data[..n])| == n;
    TotalPermutation(st.data, data[..n]);
    if n >= 1 {
      MeanTimesSize(st);
      assert IsMeanOf(Mean(st), st.data);
    }
  }

  /** `variance()` is the mean of the squares less the square of `mean()`. */
  lemma VarianceIdentity(st: Statistic)
    requires Valid(st) && |st.data| >= 1
    ensures Variance(st) == MeanOfSquares(st.data) - Mean(st) * Mean(st)
  {
    MeanTimesSize(st);
    MeanSquareIdentity(st.data, Mean(st));
  }

  /** `mean()` times `size()` is the total of the elements. */
  lemma MeanTimesSize(st: Statistic)
    requires Valid(st) && |st.data| >= 1
    ensures IsMeanOf(Mean(st), st.data)
  {
    assert Sum(st) == Total(st.data) as real;
  }

  /** The mean squared deviation from the mean `m` of `s` is the mean of
      the squares less `m * m`. */
  lemma MeanSquareIdentity(s: seq<int>, m: real)
    requires |s| >= 1 && IsMeanOf(m, s)
    ensures MeanSquaredDeviation(s, m) == MeanOfSquares(s) - m * m
  {
    SquaredDeviationsExpand(s, m);
    ExpandedQuotient(SquaredDeviations(s, m), SumOfSquares(s) as real, Total(s) as real, |s| as real, m);
  }

  /** The algebra of `MeanSquareIdentity`: with `t = m n`, the expanded
      squared deviations divided by `n` are `q / n - m * m`. */
  lemma ExpandedQuotient(d: real, q: real, t: real, n: real, m: real)
    requires n > 0.0 && m * n == t
    requires d == Expanded(q, t, n, m)
    ensures d / n == q / n - m * m
  {
    assert 2.0 * m * t == 2.0 * n * (m * m);
    assert d == q - n * (m * m);
    assert (q / n - m * m) * n == q - n * (m * m);
  }

  /** With the inputs `1, 2, ..., n`, `min()` is 1 and `max()` is `n`. */
  lemma CountingNumbers(data: seq<int>, n: int, st: Statistic)
    requires 1 <= n <= |data| && forall k | 0 <= k < n :: data[k] == k + 1
    requires Valid(st) && multiset(st.data) == multiset(data[..n])
    ensures |st.data| == n && Min(st) == 1 && Max(st) == n
    ensures st.data == data[..n]
    ensures 2 * Total(st.data) == n * (n + 1)
  {
    MinIsSmallestInput(data, n, st);
    MaxIsLargestInput(data, n, st);
    var i :| 0 <= i < n && data[..n][i] == Min(st);
    var j :| 0 <= j < n && data[..n][j] == Max(st);
    assert Min(st) <= data[0] && data[n - 1] <= Max(st);
    SortedUnique(st.data, data[..n]);
    TotalOfCountingNumbers(st.data);
  }

  /** The library's test: the numbers 1 to 10 give `min() == 1`,
      `max() == 10`, `mean() == 5.5` and `size() == 10`. */
  method OneToTen() returns (min: int, max: int, mean: real, size: int)
    ensures min == 1 && max == 10 && mean == 5.5 && size == 10
  {
    var data := [1, 2, 3, 4, 5, 6, 7, 8, 9, 10];
    var st := New(data, 10);
    CountingNumbers(data, 10, st);
    min, max, mean, size := Min(st), Max(st), Mean(st), Size(st);
  }
}

=== FILE: vector.dfy ===
/** `lib::math::vector<N, Elm>`: an `N`-dimensional vector held in a
    `std::vector`.  The element type is instantiated with `int`, so `+`, `-`
    and `*` are exact.  The held sequence need not have `N` elements (the
    iterator constructor copies any range); every access goes through
    `std::vector::at`, whose `std::out_of_range` is modelled as
    `Err(OutOfRange)`. */
module Vector {
  import opened Wrappers

  datatype Vector = Vector(elems: seq<int>)

  datatype VectorError =
    | OutOfRange   // `at` with an index outside `[0, size())`
    | LengthError  // `std::vector<Elm>(N)` with a negative `N`

  // ---------------------------------------------------------------------
  // Construction
  // ---------------------------------------------------------------------

  /** `vector()`: `N` value-initialised elements.  A negative `N` converts
      to a huge `size_type`, which `std::vector` refuses. */
  function Zero(n: int): (r: Result<Vector, VectorError>)
    ensures r.Ok? <==> n >= 0
    ensures r.Ok? ==> |r.value.elems| == n && forall k | 0 <= k < n :: r.value.elems[k] == 0
  {
    if n < 0 then Err(LengthError) else Ok(Vector(seq(n, _ => 0)))
  }

  /** `vector(first, last)`: a copy of the range `[first, last)` of a
      source sequence, whatever its length. */
  function FromRange(src: seq<int>, first: nat, last: nat): (r: Vector)
    requires first <= last <= |src|
    ensures |r.elems| == last - first
    ensures forall k | 0 <= k < last - first :: r.elems[k] == src[first + k]
  {
    Vector(src[first..last])
  }

  /** The copy constructor and copy assignment copy the whole range of the
      source, so the copy equals the original. */
  lemma CopyIsIdentity(v: Vector)
    ensures FromRange(v.elems, 0, |v.elems|) == v
  {
    assert v.elems[0..|v.elems|] == v.elems;
  }

  // ---------------------------------------------------------------------
  // Element access
  // ---------------------------------------------------------------------

  /** `operator[]` (const): element `i`, read through `std::vector::at`. */
  function At(v: Vector, i: int): (r: Result<int, VectorError>)
    ensures r.Ok? <==> 0 <= i < |v.elems|
    ensures r.Ok? ==> r.value == v.elems[i]
  {
    if 0 <= i < |v.elems| then Ok(v.elems[i]) else Err(OutOfRange)
  }

  /** `v[i] = x` through the non-const `operator[]`: the reference `at`
      returns is written, or `at` throws before anything changes. */
  function Assign(v: Vector, i: int, x: int): (r: Result<Vector, VectorError>)
    ensures r.Ok? <==> 0 <= i < |v.elems|
    ensures r.Ok? ==> |r.value.elems| == |v.elems|
  {
    if 0 <= i < |v.elems| then Ok(Vector(v.elems[i := x])) else Err(OutOfRange)
  }

  /** Reading back a written element gives the written value; every other
      element reads as before. */
  lemma AssignThenAt(v: Vector, i: int, x: int, j: int)
    requires 0 <= i < |v.elems|
    ensures Assign(v, i, x).Ok?
    ensures At(Assign(v, i, x).value, i) == Ok(x)
    ensures j != i ==> At(Assign(v, i, x).value, j) == At(v, j)
  {
  }

  // ---------------------------------------------------------------------
  // Arithmetic
  // ---------------------------------------------------------------------

  datatype Op = Plus | Minus

  function Apply(op: Op, x: int, y: int): int
  {
    match op
    case Plus => x + y
    case Minus => x - y
  }

  /** The reference meaning of `+` and `-`: the left operand with its first
      `n` elements combined with the right operand's, the rest unchanged. */
  function Pointwise(op: Op, n: int, a: seq<int>, b: seq<int>): (r: seq<int>)
    requires n <= |a| && n <= |b|
  {
    seq(|a|, k requires 0 <= k < |a| => if k < n then Apply(op, a[k], b[k]) else a[k])
  }

  /** `operator +` and `operator -`: copy the left operand into `buf`, then
      for `i` from 0 to `N - 1` combine `buf[i]` with the right operand's
      element `i`.  Both accesses go through `at`, so the first index past
      either operand throws. */
  method Combine(op: Op, n: int, a: Vector, b: Vector) returns (r: Result<Vector, VectorError>)
    ensures r.Ok? <==> n <= |a.elems| && n <= |b.elems|
    ensures r.Ok? ==> r.value.elems == Pointwise(op, n, a.elems, b.elems)
  {
    var buf := a.elems;
    var i := 0;
    while i < n
      invariant i == 0 || 0 <= i <= n
      invariant i <= |a.elems| && i <= |b.elems|
      invariant |buf| == |a.elems|
      invariant forall k | 0 <= k < |buf| :: buf[k] == (if k < i then Apply(op, a.elems[k], b.elems[k]) else a.elems[k])
    {
      if i >= |b.elems| || i >= |buf| {
        return Err(OutOfRange);
      }
      buf := buf[i := Apply(op, buf[i], b.elems[i])];
      i := i + 1;
    }
    assert forall k | 0 <= k < |buf| :: buf[k] == Pointwise(op, n, a.elems, b.elems)[k];
    r := Ok(Vector(buf));
  }

  method Add(n: int, a: Vector, b: Vector) returns (r: Result<Vector, VectorError>)
    ensures r.Ok? <==> n <= |a.elems| && n <= |b.elems|
    ensures r.Ok? ==> r.value.elems == Pointwise(Plus, n, a.elems, b.elems)
  {
    r := Combine(Plus, n, a, b);
  }

  method Sub(n: int, a: Vector, b: Vector) returns (r: Result<Vector, VectorError>)
    ensures r.Ok? <==> n <= |a.elems| && n <= |b.elems|
    ensures r.Ok? ==> r.value.elems == Pointwise(Minus, n, a.elems, b.elems)
  {
    r := Combine(Minus, n, a, b);
  }

  /** Subtracting what was added gives back the left operand. */
  lemma AddThenSub(n: int, a: seq<int>, b: seq<int>)
    requires n <= |a| && n <= |b|
    ensures Pointwise(Minus, n, Pointwise(Plus, n, a, b), b) == a
  {
  }

  /** Addition commutes on vectors of exactly `N` elements. */
  lemma AddCommutes(n: int, a: seq<int>, b: seq<int>)
    requires |a| == n && |b| == n
    ensures Pointwise(Plus, n, a, b) == Pointwise(Plus, n, b, a)
  {
  }

  // ---------------------------------------------------------------------
  // Dot product
  // ---------------------------------------------------------------------

  /** The reference dot product of the first `n` elements. */
  function Dot(a: seq<int>, b: seq<int>, n: nat): int
    requires n <= |a| && n <= |b|
  {
    if n == 0 then 0 else Dot(a, b, n - 1) + a[n - 1] * b[n - 1]
  }

  /** `dot_product`: `front() * front()`, then the products at indices 1 to
      `N - 1` through `at`.  `front()` of an empty vector is undefined, so
      both operands must have an element.  For `N <= 1` the result is the
      product of the first elements, even when `N <= 0`. */
  method DotProduct(n: int, a: Vector, b: Vector) returns (r: Result<int, VectorError>)
    requires |a.elems| >= 1 && |b.elems| >= 1
    ensures n <= 1 ==> r == Ok(a.elems[0] * b.elems[0])
    ensures n >= 1 ==> (r.Ok? <==> n <= |a.elems| && n <= |b.elems|)
    ensures n >= 1 && r.Ok? ==> r.value == Dot(a.elems, b.elems, n)
  {
    var buf := a.elems[0] * b.elems[0];
    assert buf == Dot(a.elems, b.elems, 1);
    var i := 1;
    while i < n
      invariant i == 1 || 1 <= i <= n
      invariant i <= |a.elems| && i <= |b.elems|
      invariant buf == Dot(a.elems, b.elems, i)
    {
      if i >= |a.elems| || i >= |b.elems| {
        return Err(OutOfRange);
      }
      buf := buf + a.elems[i] * b.elems[i];
      i := i + 1;
    }
    r := Ok(buf);
  }

  /** The dot product is symmetric. */
  lemma {:induction false} DotSymmetric(a: seq<int>, b: seq<int>, n: nat)
    requires n <= |a| && n <= |b|
    ensures Dot(a, b, n) == Dot(b, a, n)
  {
    if n > 0 {
      DotSymmetric(a, b, n - 1);
      assert a[n - 1] * b[n - 1] == b[n - 1] * a[n - 1];
    }
  }

  /** The dot product distributes over `+`. */
  lemma {:induction false} DotDistributes(a: seq<int>, b: seq<int>, c: seq<int>, n: nat)
    requires n <= |a| && n <= |b| && n <= |c|
    ensures Dot(Pointwise(Plus, n, a, b), c, n) == Dot(a, c, n) + Dot(b, c, n)
  {
    if n > 0 {
      var s := Pointwise(Plus, n, a, b);
      var s' := Pointwise(Plus, n - 1, a, b);
      DotPrefix(s, s', c, n - 1);
      DotDistributes(a, b, c, n - 1);
      assert s[n - 1] == a[n - 1] + b[n - 1];
      assert (a[n - 1] + b[n - 1]) * c[n - 1] == a[n - 1] * c[n - 1] + b[n - 1] * c[n - 1];
    }
  }

  /** The dot product of the first `n` elements reads nothing beyond them. */
  lemma {:induction false} DotPrefix(a: seq<int>, a': seq<int>, b: seq<int>, n: nat)
    requires n <= |a| && n <= |a'| && n <= |b|
    requires forall k | 0 <= k < n :: a[k] == a'[k]
    ensures Dot(a, b, n) == Dot(a', b, n)
  {
    if n > 0 {
      DotPrefix(a, a', b, n - 1);
    }
  }

  /** The dot product of a vector with itself is never negative. */
  lemma {:induction false} DotSelfNonNegative(a: seq<int>, n: nat)
    requires n <= |a|
    ensures Dot(a, a, n) >= 0
  {
    if n > 0 {
      DotSelfNonNegative(a, n - 1);
      assert a[n - 1] * a[n - 1] >= 0;
    }
  }

  // ---------------------------------------------------------------------
  // The library's example
  // ---------------------------------------------------------------------

  /** A default three-dimensional vector with `1, 2, 3` written through
      the index operator. */
  method OneTwoThree() returns (v: Vector)
    ensures v.elems == [1, 2, 3]
  {
    var z := Zero(3).value;
    var a := Assign(z, 0, 1).value;
    var b := Assign(a, 1, 2).value;
    v := Assign(b, 2, 3).value;
    assert v.elems == [1, 2, 3];
  }

  /** Two three-dimensional vectors `(1, 2, 3)`: their sum is `(2, 4, 6)`,
      their difference is zero and their dot product is 14. */
  method Example() returns (sum: Vector, diff: Vector, dot: int)
    ensures sum.elems == [2, 4, 6] && diff.elems == [0, 0, 0] && dot == 14
  {
    var v0 := OneTwoThree();
    var v1 := OneTwoThree();
    var s := Add(3, v0, v1);
    var d := Sub(3, v0, v1);
    var p := DotProduct(3, v0, v1);
    assert Dot([1, 2, 3], [1, 2, 3], 3) == 14;
    sum, diff, dot := s.value, d.value, p.value;
  }
}

=== FILE: wrappers.dfy ===
/** Failure-carrying results shared by every module of the model: a C++
    `throw`, a NULL pointer or undefined behaviour that the model names
    becomes an explicit value here. */
module Wrappers {

  /** An optional value; `None` stands for a NULL pointer. */
  datatype Option<+T> = None | Some(value: T)

  /** Either the value an operation returns or the error it throws. */
  datatype Result<+T, +E> = Ok(value: T) | Err(error: E)
}

=== FILE: xorshift.dfy ===
/** The xorshift128 generators `Lib::CXorShift`, `lib::xorshift` and the C
    `XorShift` struct.  Each is a four-word state machine on 32-bit unsigned
    words: a seed fills the words by a linear recurrence, and every draw
    applies one shift/xor step and returns the new last word.  The three
    differ only in the shift triple and the seeding constants, so one model
    takes those as parameters.

    The state holds the words as the unsigned integers C sees.  The shifts
    and xors of a step work on the bits of a word, least significant first:
    `ToWord` and `ToU32` convert between the two views. */
module XorShift {
  import opened Wrappers
  import opened Binary

  /** A 32-bit unsigned value as an integer. */
  type u32 = x: int | 0 <= x < 0x1_0000_0000

  const MaxU32: u32 := 0xFFFF_FFFF

  datatype State = State(x: u32, y: u32, z: u32, w: u32)

  /** The state from which xorshift never escapes. */
  const Zero: State := State(0, 0, 0, 0)

  /** The shift triple (a, b, c) of `t = x ^ (x << a)` and
      `w' = (w ^ (w >> c)) ^ (t ^ (t >> b))`: (11, 8, 19) in `CXorShift`
      and `XorShift`, (15, 4, 21) in `xorshift`. */
  datatype Triple = Xor11_19_8 | Xor15_21_4

  /** The seeding constants: the C++ classes use `1234 * v + 56789` for all
      three words, the C struct `1234 * v + 5678` and `1334 * z + 5678` for
      the last. */
  datatype SeedRule = ClassSeed | StructSeed

  datatype RangeError = MinGreaterThanMax | DivisionByZero

  // ---------------------------------------------------------------------
  // Words as bits
  // ---------------------------------------------------------------------

  /** The bits of a 32-bit word; bit `i` has weight 2^i. */
  type Word = b: seq<bool> | |b| == 32 witness Zeros(32)

  /** The bits of a 32-bit value. */
  function ToWord(n: u32): Word
  {
    Bits(n, 32)
  }

  /** The value a word holds; every word holds exactly one value. */
  function ToU32(w: Word): (n: u32)
    ensures ToWord(n) == w
  {
    ValueBound(w);
    Pow2Of32();
    BitsOfValue(w);
    Value(w)
  }

  /** A value survives the round trip through its bits. */
  lemma WordRoundTrip(n: u32)
    ensures ToU32(ToWord(n)) == n
  {
    Pow2Of32();
    ValueOfBits(n, 32);
  }

  /** The low bit of a word is the parity of its value. */
  lemma LowBitIsParity(n: u32)
    ensures ToWord(n)[0] <==> n % 2 == 1
  {
  }

  // ---------------------------------------------------------------------
  // Bitwise operations
  // ---------------------------------------------------------------------

  /** `a ^ b`. */
  function Xor(a: Word, b: Word): Word
  {
    XorBits(a, b)
  }

  /** Bit `i` of `a ^ b` is bit `i` of `a` xor bit `i` of `b`. */
  lemma XorAt()
    ensures forall a: Word, b: Word, i | 0 <= i < 32 :: Xor(a, b)[i] == (a[i] != b[i])
  {
    forall a: Word, b: Word
      ensures forall i | 0 <= i < 32 :: Xor(a, b)[i] == (a[i] != b[i])
    {
      XorBitsAt(a, b);
    }
  }

  /** `a << k`: the low `k` bits are 0, the top `k` bits fall off. */
  function Shl(a: Word, k: nat): Word
    requires k <= 32
  {
    Zeros(k) + a[..32 - k]
  }

  /** `a >> k`: the low `k` bits fall off, the high `k` bits are 0. */
  function Shr(a: Word, k: nat): Word
    requires k <= 32
  {
    a[k..] + Zeros(k)
  }

  /** Bit `i` of `a << k` is bit `i - k` of `a`, and 0 below `k`. */
  lemma ShlAt()
    ensures forall a: Word, k: nat, i | k <= 32 && 0 <= i < 32 :: Shl(a, k)[i] == (i >= k && a[i - k])
  {
  }

  /** Bit `i` of `a >> k` is bit `i + k` of `a`, and 0 from `32 - k` up. */
  lemma ShrAt()
    ensures forall a: Word, k: nat, i | k <= 32 && 0 <= i < 32 :: Shr(a, k)[i] == (i + k < 32 && a[i + k])
  {
  }

  lemma XorCancel(a: Word, b: Word)
    ensures Xor(b, Xor(b, a)) == a
  {
    XorAt();
    assert forall i | 0 <= i < 32 :: Xor(b, Xor(b, a))[i] == a[i];
  }

  // ---------------------------------------------------------------------
  // The same operations on C's unsigned integers
  // ---------------------------------------------------------------------

  /** C's `a ^ b` on two `uint32_t` values. */
  function XorU32(a: u32, b: u32): u32
  {
    Pow2Of32();
    XorBound(a, b, 32);
    BitXor(a, b)
  }

  /** C's `n << k` on a `uint32_t`: `n * 2^k` reduced modulo 2^32. */
  function ShlU32(n: u32, k: nat): u32
  {
    (n * Pow2(k)) % 0x1_0000_0000
  }

  /** C's `n >> k` on a `uint32_t`: the bits above the lowest `k`, which
      is `n / 2^k` rounded down. */
  function ShrU32(n: u32, k: nat): (r: u32)
    requires k <= 32
    ensures r == n / Pow2(k)
  {
    AboveAtMost(n, k);
    AboveIsQuotient(n, k);
    Above(n, k)
  }

  /** The bits of `a ^ b` are the xor of the bits of `a` and `b`. */
  lemma XorValue(a: u32, b: u32)
    ensures ToWord(XorU32(a, b)) == Xor(ToWord(a), ToWord(b))
  {
    BitsOfXor(a, b, 32);
  }

  /** Shifting the bits of `n` left by `k` gives the bits of `n << k`. */
  lemma ShlValue(n: u32, k: nat)
    requires k <= 32
    ensures Shl(ToWord(n), k) == ToWord(ShlU32(n, k))
  {
    var j := 32 - k;
    Pow2Of32();
    WrapShift(n, k, j);
    ShiftedBits(n % Pow2(j), k, j);
    LowBitsOfMod(n, j);
    BitsSplit(n, j, k);
  }

  /** Shifting the bits of `n` right by `k` gives the bits of `n >> k`. */
  lemma ShrValue(n: u32, k: nat)
    requires k <= 32
    ensures Shr(ToWord(n), k) == ToWord(ShrU32(n, k))
  {
    var m := ShrU32(n, k);
    BitsSplit(n, k, 32 - k);
    // `m` has no bits at or above `32 - k`.
    BitsSplit(m, 32 - k, k);
    Pow2Of32();
    AboveBound(n, k, 32 - k);
    AboveIsQuotient(m, 32 - k);
    DivModUnique(m, Pow2(32 - k), 0, m);
    BitsOfZero(k);
  }

  // ---------------------------------------------------------------------
  // Seeding
  // ---------------------------------------------------------------------

  /** The next seed word: `m * v + c` in 32-bit unsigned arithmetic. */
  function NextSeed(v: u32, m: nat, c: nat): u32
  {
    (m * v + c) % 0x1_0000_0000
  }

  /** The constructor (or `XorShift_NewWith`): `x = seed`, then each further
      word from the previous one. */
  function Seed(seed: u32, rule: SeedRule): (s: State)
    ensures s.x == seed
  {
    match rule
    case ClassSeed =>
      var y := NextSeed(seed, 1234, 56789);
      var z := NextSeed(y, 1234, 56789);
      State(seed, y, z, NextSeed(z, 1234, 56789))
    case StructSeed =>
      var y := NextSeed(seed, 1234, 5678);
      var z := NextSeed(y, 1234, 5678);
      State(seed, y, z, NextSeed(z, 1334, 5678))
  }

  /** No seed puts the generator in the all-zero state: a zero `x` makes
      `y` the non-zero constant. */
  lemma SeededStateNeverZero(seed: u32, rule: SeedRule)
    ensures Seed(seed, rule) != Zero
  {
    if seed == 0 {
      assert NextSeed(0, 1234, 56789) == 56789;
      assert NextSeed(0, 1234, 5678) == 5678;
    }
  }

  // ---------------------------------------------------------------------
  // The step and its inverse
  // ---------------------------------------------------------------------

  function ShiftA(tr: Triple): nat { match tr case Xor11_19_8 => 11 case Xor15_21_4 => 15 }
  function ShiftB(tr: Triple): nat { match tr case Xor11_19_8 => 8 case Xor15_21_4 => 4 }
  function ShiftC(tr: Triple): nat { match tr case Xor11_19_8 => 19 case Xor15_21_4 => 21 }

  /** `t ^ (t >> b)` where `t = x ^ (x << a)`: what the oldest word
      contributes to the new one. */
  function Scramble(x: Word, tr: Triple): Word
  {
    var t := Xor(x, Shl(x, ShiftA(tr)));
    Xor(t, Shr(t, ShiftB(tr)))
  }

  /** `w ^ (w >> c)`: what the newest word contributes to the new one. */
  function Fold(w: Word, tr: Triple): Word
  {
    Xor(w, Shr(w, ShiftC(tr)))
  }

  /** `Generate()`'s state update: shift the words down and append
      `(w ^ (w >> c)) ^ (t ^ (t >> b))`, computed on the words' bits
      (`StepNextWord` gives the same word in C's arithmetic). */
  function Step(s: State, tr: Triple): (r: State)
    ensures r.x == s.y && r.y == s.z && r.z == s.w
  {
    var x := ToWord(s.x);
    State(s.y, s.z, s.w, ToU32(Xor(Fold(ToWord(s.w), tr), Scramble(x, tr))))
  }

  /** The new last word in C's unsigned arithmetic, from the oldest word
      `x` and the newest word `w`. */
  function NextWord(x: u32, w: u32, tr: Triple): u32
  {
    var t := XorU32(x, ShlU32(x, ShiftA(tr)));
    XorU32(XorU32(w, ShrU32(w, ShiftC(tr))), XorU32(t, ShrU32(t, ShiftB(tr))))
  }

  /** The step's new last word, computed on the words' bits, is
      `NextWord` of the oldest and newest words. */
  lemma StepNextWord(s: State, tr: Triple)
    ensures Step(s, tr).w == NextWord(s.x, s.w, tr)
  {
    var x, w := s.x, s.w;
    var t := XorU32(x, ShlU32(x, ShiftA(tr)));
    var f := XorU32(w, ShrU32(w, ShiftC(tr)));
    var g := XorU32(t, ShrU32(t, ShiftB(tr)));
    ShlValue(x, ShiftA(tr));
    XorValue(x, ShlU32(x, ShiftA(tr)));
    assert Xor(ToWord(x), Shl(ToWord(x), ShiftA(tr))) == ToWord(t);
    ShrValue(t, ShiftB(tr));
    XorValue(t, ShrU32(t, ShiftB(tr)));
    assert Scramble(ToWord(x), tr) == ToWord(g);
    ShrValue(w, ShiftC(tr));
    XorValue(w, ShrU32(w, ShiftC(tr)));
    assert Fold(ToWord(w), tr) == ToWord(f);
    XorValue(f, g);
    WordRoundTrip(XorU32(f, g));
  }

  /** Undo `x ^ (x << a)` by xoring in every further multiple of the shift. */
  function UndoXorShl(t: Word, tr: Triple): Word
  {
    match tr
    case Xor11_19_8 => Xor(Xor(t, Shl(t, 11)), Shl(t, 22))
    case Xor15_21_4 => Xor(Xor(t, Shl(t, 15)), Shl(t, 30))
  }

  /** Undo `t ^ (t >> b)` likewise. */
  function UndoXorShr(u: Word, tr: Triple): Word
  {
    match tr
    case Xor11_19_8 => Xor(Xor(Xor(u, Shr(u, 8)), Shr(u, 16)), Shr(u, 24))
    case Xor15_21_4 =>
      Xor(Xor(Xor(Xor(Xor(Xor(Xor(u, Shr(u, 4)), Shr(u, 8)), Shr(u, 12)),
        Shr(u, 16)), Shr(u, 20)), Shr(u, 24)), Shr(u, 28))
  }

  /** Undo `t ^ (t >> b)` and then `x ^ (x << a)`. */
  function Unscramble(u: Word, tr: Triple): Word
  {
    UndoXorShl(UndoXorShr(u, tr), tr)
  }

  /** The state a step came from: the oldest word is recovered from the
      newest two. */
  function Unstep(s': State, tr: Triple): State
  {
    var u := Xor(Fold(ToWord(s'.z), tr), ToWord(s'.w));
    State(ToU32(Unscramble(u, tr)), s'.x, s'.y, s'.z)
  }

  lemma UndoLeft(x: Word, tr: Triple)
    ensures UndoXorShl(Xor(x, Shl(x, ShiftA(tr))), tr) == x
  {
    XorAt();
    ShlAt();
    var t := Xor(x, Shl(x, ShiftA(tr)));
    forall i | 0 <= i < 32 ensures UndoXorShl(t, tr)[i] == x[i] {
    }
  }

  lemma RedoLeft(t: Word, tr: Triple)
    ensures var x := UndoXorShl(t, tr); Xor(x, Shl(x, ShiftA(tr))) == t
  {
    XorAt();
    ShlAt();
    var x := UndoXorShl(t, tr);
    forall i | 0 <= i < 32 ensures Xor(x, Shl(x, ShiftA(tr)))[i] == t[i] {
    }
  }

  lemma UndoRight(t: Word, tr: Triple)
    ensures UndoXorShr(Xor(t, Shr(t, ShiftB(tr))), tr) == t
  {
    XorAt();
    ShrAt();
    var u := Xor(t, Shr(t, ShiftB(tr)));
    forall i | 0 <= i < 32 ensures UndoXorShr(u, tr)[i] == t[i] {
    }
  }

  lemma RedoRight(u: Word, tr: Triple)
    ensures var t := UndoXorShr(u, tr); Xor(t, Shr(t, ShiftB(tr))) == u
  {
    match tr
    case Xor11_19_8 => RedoRight8(u);
    case Xor15_21_4 => RedoRight4(u);
  }

  lemma RedoRight8(u: Word)
    ensures var t := UndoXorShr(u, Xor11_19_8); Xor(t, Shr(t, 8)) == u
  {
    XorAt();
    ShrAt();
    var t := UndoXorShr(u, Xor11_19_8);
    forall i | 0 <= i < 32 ensures Xor(t, Shr(t, 8))[i] == u[i] {
    }
  }

  lemma RedoRight4(u: Word)
    ensures var t := UndoXorShr(u, Xor15_21_4); Xor(t, Shr(t, 4)) == u
  {
    XorAt();
    ShrAt();
    var t := UndoXorShr(u, Xor15_21_4);
    forall i | 0 <= i < 32 ensures Xor(t, Shr(t, 4))[i] == u[i] {
    }
  }

  /** `Unscramble` inverts `Scramble`. */
  lemma UnscrambleScramble(x: Word, tr: Triple)
    ensures Unscramble(Scramble(x, tr), tr) == x
  {
    UndoRight(Xor(x, Shl(x, ShiftA(tr))), tr);
    UndoLeft(x, tr);
  }

  /** `Scramble` inverts `Unscramble`. */
  lemma ScrambleUnscramble(u: Word, tr: Triple)
    ensures Scramble(Unscramble(u, tr), tr) == u
  {
    RedoLeft(UndoXorShr(u, tr), tr);
    RedoRight(u, tr);
  }

  /** Every state has exactly one predecessor: the step is a bijection of
      the 128-bit state space. */
  lemma StepOfUnstep(s': State, tr: Triple)
    ensures Step(Unstep(s', tr), tr) == s'
  {
    var f := Fold(ToWord(s'.z), tr);
    var u := Xor(f, ToWord(s'.w));
    var x := Unscramble(u, tr);
    ScrambleUnscramble(u, tr);
    XorCancel(ToWord(s'.w), f);
    WordRoundTrip(s'.w);
    assert ToWord(ToU32(x)) == x;
  }

  /** `Unstep` recovers the state a step came from. */
  lemma UnstepOfStep(s: State, tr: Triple)
    ensures Unstep(Step(s, tr), tr) == s
  {
    var x := ToWord(s.x);
    var f := Fold(ToWord(s.w), tr);
    UnscrambleScramble(x, tr);
    XorCancel(Scramble(x, tr), f);
    WordRoundTrip(s.x);
  }

  lemma StepInjective(s1: State, s2: State, tr: Triple)
    requires Step(s1, tr) == Step(s2, tr)
    ensures s1 == s2
  {
    UnstepOfStep(s1, tr);
    UnstepOfStep(s2, tr);
    assert Unstep(Step(s1, tr), tr) == Unstep(Step(s2, tr), tr);
  }

  /** The zero word has value 0, and both halves of the step map it to
      itself. */
  lemma ZeroWordFixed(tr: Triple)
    ensures ToU32(ToWord(0)) == 0
    ensures Scramble(ToWord(0), tr) == ToWord(0) && Fold(ToWord(0), tr) == ToWord(0)
  {
    var z := ToWord(0);
    WordRoundTrip(0);
    ShiftZero(ShiftA(tr));
    ShiftZero(ShiftB(tr));
    ShiftZero(ShiftC(tr));
    XorSelf(z);
    assert Xor(z, Shl(z, ShiftA(tr))) == z;
  }

  lemma ShiftZero(k: nat)
    requires k <= 32
    ensures Shl(ToWord(0), k) == ToWord(0) && Shr(ToWord(0), k) == ToWord(0)
  {
    BitsOfZero(32);
    var z := ToWord(0);
    assert Shl(z, k) == Zeros(k) + Zeros(32)[..32 - k];
    assert Shr(z, k) == Zeros(32)[k..] + Zeros(k);
  }

  lemma XorSelf(a: Word)
    ensures Xor(a, a) == ToWord(0)
  {
    BitsOfZero(32);
    XorAt();
    assert forall i | 0 <= i < 32 :: Xor(a, a)[i] == ToWord(0)[i];
  }

  /** The all-zero state is a fixed point, and the only state stepping to it. */
  lemma StepZero(s: State, tr: Triple)
    ensures Step(s, tr) == Zero <==> s == Zero
  {
    var z := ToWord(0);
    ZeroWordFixed(tr);
    XorSelf(z);
    assert Step(Zero, tr) == Zero;
    if Step(s, tr) == Zero {
      StepInjective(s, Zero, tr);
    }
  }

  // ---------------------------------------------------------------------
  // Draw sequences
  // ---------------------------------------------------------------------

  /** The state after `n` calls of `Generate()`. */
  function StepN(s: State, tr: Triple, n: nat): State
    decreases n
  {
    if n == 0 then s else StepN(Step(s, tr), tr, n - 1)
  }

  /** The values returned by `n` successive calls of `Generate()`. */
  function Draws(s: State, tr: Triple, n: nat): (d: seq<u32>)
    ensures |d| == n
    decreases n
  {
    if n == 0 then [] else [Step(s, tr).w] + Draws(Step(s, tr), tr, n - 1)
  }

  /** A non-zero state stays non-zero however many draws are taken, so the
      generator never falls into the constant-zero cycle. */
  lemma {:induction false} NeverZero(s: State, tr: Triple, n: nat)
    requires s != Zero
    ensures StepN(s, tr, n) != Zero
    decreases n
  {
    if n > 0 {
      StepZero(s, tr);
      NeverZero(Step(s, tr), tr, n - 1);
    }
  }

  /** One more step is one more `Step` at the end. */
  lemma {:induction false} StepNLast(s: State, tr: Triple, n: nat)
    ensures StepN(s, tr, n + 1) == Step(StepN(s, tr, n), tr)
    decreases n
  {
    if n > 0 {
      StepNLast(Step(s, tr), tr, n - 1);
    }
  }

  /** The `i`-th draw is the last word after `i + 1` steps. */
  lemma {:induction false} DrawsAreLastWords(s: State, tr: Triple, n: nat)
    ensures forall i | 0 <= i < n :: Draws(s, tr, n)[i] == StepN(s, tr, i + 1).w
    decreases n
  {
    if n > 0 {
      DrawsAreLastWords(Step(s, tr), tr, n - 1);
      forall i | 0 <= i < n ensures Draws(s, tr, n)[i] == StepN(s, tr, i + 1).w {
        if i > 0 {
          assert Draws(s, tr, n)[i] == Draws(Step(s, tr), tr, n - 1)[i - 1];
        }
      }
    }
  }

  /** Four draws are the whole state after them. */
  lemma FourDrawsAreTheState(s: State, tr: Triple)
    ensures var d := Draws(s, tr, 4); StepN(s, tr, 4) == State(d[0], d[1], d[2], d[3])
  {
    DrawsAreLastWords(s, tr, 4);
    StepNLast(s, tr, 1);
    StepNLast(s, tr, 2);
    StepNLast(s, tr, 3);
  }

  lemma {:induction false} StepNInjective(s1: State, s2: State, tr: Triple, n: nat)
    requires StepN(s1, tr, n) == StepN(s2, tr, n)
    ensures s1 == s2
    decreases n
  {
    if n > 0 {
      StepNInjective(Step(s1, tr), Step(s2, tr), tr, n - 1);
      StepInjective(s1, s2, tr);
    }
  }

  /** Different seeds give different output streams: already the first
      four draws differ. */
  lemma DistinctSeedsDistinctDraws(seed1: u32, seed2: u32, rule: SeedRule, tr: Triple)
    requires seed1 != seed2
    ensures Draws(Seed(seed1, rule), tr, 4) != Draws(Seed(seed2, rule), tr, 4)
  {
    var s1 := Seed(seed1, rule);
    var s2 := Seed(seed2, rule);
    FourDrawsAreTheState(s1, tr);
    FourDrawsAreTheState(s2, tr);
    if Draws(s1, tr, 4) == Draws(s2, tr, 4) {
      StepNInjective(s1, s2, tr, 4);
    }
  }

  // ---------------------------------------------------------------------
  // Draws
  // ---------------------------------------------------------------------

  /** `Generate()`: one step; the new last word is returned. */
  function Generate(s: State, tr: Triple): (r: (u32, State))
    ensures r.1 == Step(s, tr) && r.0 == r.1.w
    ensures Draws(s, tr, 1) == [r.0]
  {
    var s' := Step(s, tr);
    (s'.w, s')
  }

  /** `Generate(min, max)` as written: `min > max` throws before drawing;
      otherwise the draw is reduced modulo `(max - min) + 1` in 32-bit
      arithmetic, which wraps to 0 for the full range and divides by zero. */
  function GenerateRangeAsWritten(s: State, tr: Triple, min: u32, max: u32): (r: (Result<u32, RangeError>, State))
    ensures min > max ==> r == (Err(MinGreaterThanMax), s)
    ensures min <= max && max - min < MaxU32 ==> r == GenerateRange(s, tr, min, max)
  {
    if min > max then (Err(MinGreaterThanMax), s)
    else
      var (v, s') := Generate(s, tr);
      var d := (max - min + 1) % 0x1_0000_0000;
      if d == 0 then (Err(DivisionByZero), s')
      else
        assert d == max - min + 1;
        (Ok(Reduce(v, min, max)), s')
  }

  /** `tmp % ((max - min) + 1) + min` when the modulus does not wrap. */
  function Reduce(v: u32, min: u32, max: u32): (r: u32)
    requires min <= max && max - min < MaxU32
    ensures min <= r <= max
  {
    v % (max - min + 1) + min
  }

  /** The full range is the one input the as-written reduction cannot
      handle. */
  lemma FullRangeDividesByZero(s: State, tr: Triple)
    ensures GenerateRangeAsWritten(s, tr, 0, MaxU32).0 == Err(DivisionByZero)
  {
  }

  /** `Generate(min, max)` with the full range returning the raw draw:
      every draw with `min <= max` lies in `[min, max]`. */
  function GenerateRange(s: State, tr: Triple, min: u32, max: u32): (r: (Result<u32, RangeError>, State))
    ensures min > max ==> r == (Err(MinGreaterThanMax), s)
    ensures min <= max ==> r.0.Ok? && min <= r.0.value <= max && r.1 == Step(s, tr)
    ensures min <= max ==> r.0.value == Generate(s, tr).0 % (max - min + 1) + min
    ensures min <= max && max - min == MaxU32 ==> r.0.value == Generate(s, tr).0
  {
    if min > max then (Err(MinGreaterThanMax), s)
    else
      var (v, s') := Generate(s, tr);
      if max - min == MaxU32 then (Ok(v), s')
      else (Ok(Reduce(v, min, max)), s')
  }

  /** `Generate(max)` as written: the modulus `max + 1` wraps to 0 when
      `max` is the largest 32-bit value. */
  function GenerateMaxAsWritten(s: State, tr: Triple, max: u32): (r: (Result<u32, RangeError>, State))
    ensures max < MaxU32 ==> r == (Ok(GenerateMax(s, tr, max).0), GenerateMax(s, tr, max).1)
    ensures max == MaxU32 ==> r == (Err(DivisionByZero), Step(s, tr))
  {
    var (v, s') := Generate(s, tr);
    var d := (max + 1) % 0x1_0000_0000;
    if d == 0 then (Err(DivisionByZero), s') else (Ok(v % d), s')
  }

  /** `Generate(max)` with the largest bound returning the raw draw: the
      result never exceeds `max`. */
  function GenerateMax(s: State, tr: Triple, max: u32): (r: (u32, State))
    ensures r.0 <= max && r.1 == Step(s, tr)
    ensures r.0 == Generate(s, tr).0 % (max + 1)
    ensures max == MaxU32 ==> r.0 == Generate(s, tr).0
  {
    var (v, s') := Generate(s, tr);
    if max == MaxU32 then (v, s') else (v % (max + 1), s')
  }

  /** `GenerateBit()` is `Generate(1)` as written, which cannot throw:
      the parity of the raw draw. */
  function GenerateBit(s: State, tr: Triple): (r: (u32, State))
    ensures r.0 == 0 || r.0 == 1
    ensures r.0 == Generate(s, tr).0 % 2 && r.1 == Step(s, tr)
  {
    var (res, s') := GenerateMaxAsWritten(s, tr, 1);
    assert res.Ok?;
    (res.value, s')
  }


  /** The bit drawn is the lowest bit of the new last word. */
  lemma BitIsLowestBit(s: State, tr: Triple)
    ensures GenerateBit(s, tr).0 == 1 <==> ToWord(Step(s, tr).w)[0]
  {
    LowBitIsParity(Step(s, tr).w);
  }

  // ---------------------------------------------------------------------
  // Letters (lib::xorshift only)
  // ---------------------------------------------------------------------

  predicate IsLetter(c: char)
  {
    ('a' <= c <= 'z') || ('A' <= c <= 'Z')
  }

  /** Offsets 0..25 are 'a'..'z', offsets 26..51 are 'A'..'Z'. */
  function Letter(offset: int): char
    requires 0 <= offset < 52
  {
    if offset < 26 then ('a' as int + offset) as char else ('A' as int + offset - 26) as char
  }

  function OffsetOf(c: char): int
    requires IsLetter(c)
  {
    if 'a' <= c <= 'z' then c as int - 'a' as int else c as int - 'A' as int + 26
  }

  /** `Letter` is a bijection between the offsets 0..51 and the letters. */
  lemma LetterRoundTrip(offset: int, c: char)
    requires 0 <= offset < 52 && IsLetter(c)
    ensures IsLetter(Letter(offset)) && OffsetOf(Letter(offset)) == offset
    ensures 0 <= OffsetOf(c) < 52 && Letter(OffsetOf(c)) == c
  {
  }

  /** `GenerateAlphabet()`: draw an offset in [0, 51] with `Generate(min,
      max)` as written and map it to a letter.  The range is neither empty
      nor full, so the draw cannot throw. */
  function GenerateAlphabet(s: State): (r: (char, State))
    ensures IsLetter(r.0)
    ensures r.0 == Letter(Generate(s, Xor15_21_4).0 % 52)
    ensures r.1 == Step(s, Xor15_21_4)
  {
    var (res, s') := GenerateRangeAsWritten(s, Xor15_21_4, 0, 51);
    assert res.Ok?;
    (Letter(res.value), s')
  }

  // ---------------------------------------------------------------------
  // Self tests
  // ---------------------------------------------------------------------

  /** The self test shared by `TestCXorShift` and `testxorshift`: for
      `min = 0, max = 10000` moving towards each other, draw 1000 values
      with `Generate(min, max)` and fail on any value outside the range.
      A thrown error is reported as `Err`. */
  method RangeSelfTest(s0: State, tr: Triple) returns (r: Result<bool, RangeError>, s: State)
    ensures r == Ok(true)
  {
    s := s0;
    var min: u32 := 0;
    var max: u32 := 10000;
    while min != max
      invariant min <= max <= 10000
      invariant min + max == 10000
      decreases max - min
    {
      var count := 0;
      while count < 1000
        invariant min < max
      {
        var (res, s') := GenerateRangeAsWritten(s, tr, min, max);
        s := s';
        match res {
          case Err(_) =>
            // The ranges here are never empty and never the full range.
            assert false;
          case Ok(v) =>
            if v < min || v > max {
              return Ok(false), s;
            }
        }
        count := count + 1;
      }
      min := min + 1;
      max := max - 1;
    }
    return Ok(true), s;
  }

  /** `CXorShift::TestCXorShift()` always passes. */
  method TestCXorShift(s0: State) returns (r: Result<bool, RangeError>, s: State)
    ensures r == Ok(true)
  {
    r, s := RangeSelfTest(s0, Xor11_19_8);
  }

  /** `xorshift::testxorshift()` always passes. */
  method TestXorShift(s0: State) returns (r: Result<bool, RangeError>, s: State)
    ensures r == Ok(true)
  {
    r, s := RangeSelfTest(s0, Xor15_21_4);
  }
}
